=== FILE: README.md ===
# Polar curves and course-change merging, in Dafny

A model of two parts of the Signal K logbook display scripts.

The polar pipeline is in `scripts/generate_polar.py`. It turns logbook points into one performance curve per wind-speed band, giving boat speed as a function of true wind angle. It works in these steps:

- fold the wind direction relative to the course into a true wind angle in [0, 180];
- drop points that are unusable (no wind, speed over ground above 0.8 × wind speed, wind below 2.5 kn, angle below 30°);
- file each remaining point under its band, together with a copy mirrored onto the other tack;
- put the samples of a band into angle buckets of `bin_size` degrees that wrap at 360;
- remove interquartile-range outliers from each bucket;
- reduce each bucket to one percentile speed (linear interpolation between order statistics);
- keep the buckets that have enough samples;
- anchor the curve at (0°, 0 kn) and (360°, 0 kn);
- smooth it with a moving average;
- answer speed queries at any angle by linear interpolation, extrapolating by at most 10° past either end.

The merge is in `merge_course_changes.py`. It collapses every run of successive "Course change: X° → Y°" log entries that start from the same course into one entry. The merged entry has:

- the first course and the last course;
- the last position;
- the largest `maxSpeed` and `maxWind`;
- the mean wind speed and the circular mean of the wind directions.

Every other entry passes through unchanged.

Layout:

- `optional.dfy`: `Option`.
- `stats.dfy`: sums, minimum and maximum, the arithmetic mean, and a specification sort.
- `polar_stats.dfy`: `percentile` and `remove_outliers`.
- `polar_samples.dfy`: `true_wind_angle`, `categorize_wind_speed` and the per-point filter and loop of `collect_sailing_samples`.
- `polar_curve.dfy`: `bucket_by_angle`, `smooth_curve`, `aggregated_curve` and `interpolate_speed`.
- `course_merge.dfy`: `merge_entries`.

Angles are in degrees and quantities are reals throughout. Each loop of the source that builds a collection or updates a result step by step (collecting samples, bucketing, scanning buckets, anchoring, smoothing, merging) is a `method` whose `ensures` ties its result to a specification function; the first-match scan of `categorize_wind_speed` is the recursive function `FirstBand`. The properties the source promises are proved as lemmas about those functions.

## Model

| member | source | states |
|---|---|---|
| Stats.Mean | scripts/generate_polar.py:232-233 | The average of a non-empty list lies between its minimum and its maximum. |
| Stats.AverageWithin | scripts/generate_polar.py:232-233 | If every value lies in [lo, hi], so does the average. |
| Stats.Sort | scripts/generate_polar.py:96 | `sorted(values)` is ascending and a permutation of its input. |
| Stats.SortedExtremes | scripts/generate_polar.py:96-100 | The first sorted value is the minimum and the last is the maximum. |
| PolarStats.ClampPercent | scripts/generate_polar.py:101 | The clamped percentage lies in [0, 100]. |
| PolarStats.Ceil | scripts/generate_polar.py:104 | `math.ceil` is the least integer at or above x: the floor or the floor plus one. |
| PolarStats.Rank | scripts/generate_polar.py:102 | The fractional rank lies between 0 and n-1, so both order statistics exist. |
| PolarStats.Percentile | scripts/generate_polar.py:95-110 | There is no result exactly when the input is empty (the `ValueError`). |
| PolarStats.InterpolateBetweenRanks | scripts/generate_polar.py:103-110 | `Interpolate`, the floor/ceil interpolation of lines 102-110 on the sorted values: interpolating between the floor and ceiling order statistics gives a value between them. |
| PolarStats.PercentileBetweenRanks | scripts/generate_polar.py:96-110 | For two or more values, the percentile lies between the sorted values at floor(rank) and ceil(rank). |
| PolarStats.PercentileWithinRange | scripts/generate_polar.py:95-110 | Every percentile of a non-empty list lies between its minimum and maximum. |
| PolarStats.PercentileExtremes | scripts/generate_polar.py:99-106 | A percentile at or below 0 is the minimum; one at or above 100 is the maximum. |
| PolarStats.PercentileMedianOdd | scripts/generate_polar.py:102-106 | The 50th percentile of an odd-length list is its middle sorted value. |
| PolarStats.KeepWithin | scripts/generate_polar.py:214 | The comprehension keeps the values within the bounds, each as many times as it occurs in the input (the same multiset restricted to the bounds), in their original order. |
| PolarStats.Fences | scripts/generate_polar.py:210-216 | Q1 and Q3 lie in order inside the fences. This holds both for a degenerate IQR (the fences are Q1 and Q3) and for the 1.5 × IQR fences. |
| PolarStats.RemoveOutliers | scripts/generate_polar.py:206-217 | Fewer than four values are returned unchanged. Otherwise a value is kept iff it lies within the fences, as many times as it occurs in the input. The result is always an order-preserving subsequence. |
| PolarStats.PercentileQuartilesOrdered | scripts/generate_polar.py:210-214 | Q1 ≤ Q3, and some data value lies between them. |
| PolarStats.QuartileRanksApart | scripts/generate_polar.py:102-104 | For four or more values, the upper rank of Q1 is at most the lower rank of Q3. |
| PolarStats.RemoveOutliersNonEmpty | scripts/generate_polar.py:240-243 | Outlier removal never empties a non-empty bucket, so the percentile of a surviving bucket never raises. |
| PolarStats.SubsequenceLength | scripts/generate_polar.py:206-217 | A filtered list is never longer than its input. |
| PolarSamples.Mod360 | scripts/generate_polar.py:115 | Python's float `% 360.0` lies in [0, 360) and differs from x by a whole number of turns. |
| PolarSamples.Mod360Unique | scripts/generate_polar.py:115 | That representative is unique. |
| PolarSamples.TrueWindAngle | scripts/generate_polar.py:113-118 | The true wind angle lies in [0, 180]. |
| PolarSamples.TrueWindAngleSymmetric | scripts/generate_polar.py:113-118 | Swapping course and wind direction gives the same angle, so the angle is absolute. |
| PolarSamples.TrueWindAnglePeriodic | scripts/generate_polar.py:113-118 | Adding whole turns to the course does not change the angle. |
| PolarSamples.FirstBand | scripts/generate_polar.py:127-134 | The scan returns the first band that contains the speed, or none if no band does. |
| PolarSamples.CategorizeUnique | scripts/generate_polar.py:27-32 | `CategorizeWindSpeed` (the scan of lines 126-134) gives a speed band i iff it lies in band i. |
| PolarSamples.CategorizeCovers | scripts/generate_polar.py:126-134 | A speed has no band iff it is below 2.5 kn. |
| PolarSamples.ClassifyPoint | scripts/generate_polar.py:172-191 | A point is dropped iff a filter rejects it. A kept point yields its band and the primary sample. Below 180° it also yields the mirrored sample at 360 − angle. |
| PolarSamples.ClassifiedSamplesFoldBack | scripts/generate_polar.py:181-191 | Every sample of a point lies in [30, 330] and folds back to the point's true wind angle with its speed. |
| PolarSamples.BandSamplesAngles | scripts/generate_polar.py:182-191 | Every sample collected for a band lies in [30, 330], and only real bands receive samples. |
| PolarSamples.CollectSamples | scripts/generate_polar.py:137-192 | The loop fills one list per band: each band's list is `BandSamples`, the concatenation, in point order, of that band's samples. |
| PolarCurve.BucketOf | scripts/generate_polar.py:199 | A bucket centre lies in [0, 360) and is a multiple of the bin size. |
| PolarCurve.BucketPeriodic | scripts/generate_polar.py:199 | An angle and the angle plus one turn fall in the same bucket (wrap-around). |
| PolarCurve.StwsInOnlyAtCentres | scripts/generate_polar.py:199-200 | Only bucket centres ever receive values. |
| PolarCurve.BucketsStep | scripts/generate_polar.py:198-200 | Appending one sample's speed under its bucket centre turns the buckets of the first i samples into those of the first i + 1. |
| PolarCurve.BucketByAngle | scripts/generate_polar.py:195-201 | The loop builds exactly `Buckets`, the map from each centre to `StwsIn`, its samples' speeds in sample order. Every key is a non-empty centre, and no sample is lost or duplicated: the sizes sum to the sample count. |
| PolarCurve.SmoothCurve | scripts/generate_polar.py:221-234 | The loop builds the smoothed curve (`Smoothed`): the end points as they are, and each interior point with the mean speed of its window clipped to the curve. |
| PolarCurve.SmoothedShape | scripts/generate_polar.py:221-234 | Curves of three points or fewer, and non-positive windows, are returned unchanged. Otherwise the angles and both end points are kept, and each interior speed is the mean of its clipped window. That mean lies between the window's minimum and maximum. |
| PolarCurve.SmoothedPointwise | scripts/generate_polar.py:225-233 | A curve made of the smoothed point at each index keeps the angles and the ends, and averages each interior point within its window's range. |
| PolarCurve.BucketSpeedWithinBucket | scripts/generate_polar.py:240-243 | `BucketSpeed`, the percentile of a bucket after outlier removal, lies between the smallest and largest speeds that survive outlier removal. |
| PolarCurve.CurvePoints | scripts/generate_polar.py:239-243 | The kept points run over the sorted keys, so their angles are strictly increasing whole numbers below k, the end of the scan (360 for the whole curve). |
| PolarCurve.CurvePointsSound | scripts/generate_polar.py:239-243 | Every kept point is a bucket that survives outlier removal with enough samples, carrying that bucket's percentile speed. |
| PolarCurve.CurvePointsComplete | scripts/generate_polar.py:239-243 | Every surviving bucket appears as a point at its key with its percentile speed. |
| PolarCurve.Anchored | scripts/generate_polar.py:244-255 | The curve starts at (0, 0) and ends at (360, 0) and stays strictly increasing. With no points it is exactly those two anchors. Interior points are kept, and nothing is invented. |
| PolarCurve.AnchorFirst | scripts/generate_polar.py:248-251 | The first point is (0, 0), whether inserted or overwritten, and every point above 0° is kept. |
| PolarCurve.AnchorLast | scripts/generate_polar.py:252-255 | The last point is (360, 0), whether appended or overwritten, and every point below 360° is kept. |
| PolarCurve.AnchorEnds | scripts/generate_polar.py:244-255 | The in-place inserts and overwrites produce the anchored curve. |
| PolarCurve.SurvivingPoints | scripts/generate_polar.py:239-243 | The loop over the sorted keys produces the kept points. |
| PolarCurve.AggregatedCurve | scripts/generate_polar.py:236-259 | The result is the surviving bucket points, anchored and then smoothed with a window of 2. It is strictly increasing from (0, 0) to (360, 0), and with no surviving bucket it is exactly those two anchors. |
| PolarCurve.SmoothedAnchored | scripts/generate_polar.py:244-259 | Smoothing the anchored curve keeps its angles, its order and both anchors. With more than three points each interior speed is the window-2 mean of the anchored curve. |
| PolarCurve.AnglesOrder | scripts/generate_polar.py:221-234 | A curve with the same angle list as a strictly increasing curve is itself strictly increasing; since smoothing keeps every angle, the smoothed curve stays strictly increasing. |
| PolarCurve.BisectLeft | scripts/generate_polar.py:265 | The index is the first one whose angle is at least the target. |
| PolarCurve.InterpolateSpeed | scripts/generate_polar.py:261-263 | An empty curve gives no value. |
| PolarCurve.InterpolateAtPoint | scripts/generate_polar.py:264-267 | Querying a curve's own angle returns its stored speed (round trip). |
| PolarCurve.InterpolateBelowFirst | scripts/generate_polar.py:268-272 | Below the first angle, the first speed is returned iff the gap is at most 10°; otherwise there is no value. For example, querying 5° on [(10, 5.0), (20, 6.0)] gives 5.0. |
| PolarCurve.InterpolateAboveLast | scripts/generate_polar.py:273-277 | Above the last angle, the last speed is returned iff the gap is at most 10°; otherwise there is no value. |
| PolarCurve.InterpolateBetween | scripts/generate_polar.py:278-283 | Inside the domain, the bracketing points straddle the target, and the answer lies between their speeds. |
| PolarCurve.InterpolateInterior | scripts/generate_polar.py:278-283 | When the first index at or above the target is strictly inside the curve, the query has an answer between the speeds of the points on either side of it. |
| PolarCurve.LerpByAngle | scripts/generate_polar.py:282-283 | Interpolating by angle proportion stays between the two speeds. |
| CourseMerge.RunLength | merge_course_changes.py:61-68 | The inner loop takes the longest prefix of course changes from the same course: every entry taken continues the run, and the next one does not. |
| CourseMerge.GroupLength | merge_course_changes.py:56-68 | A group is one entry for anything but a course change, otherwise a whole run, and it is always a well-formed group. |
| CourseMerge.RunScanned | merge_course_changes.py:61-68 | When the scan stops at the first entry that does not continue, it has covered exactly the run. |
| CourseMerge.Groups | merge_course_changes.py:53-68 | The outer loop partitions the log: the groups concatenate back to the input, each is well formed, and each run is maximal. |
| CourseMerge.Records | merge_course_changes.py:59-65 | The group list holds the mappings of the grouped entries, in order. |
| CourseMerge.Present | merge_course_changes.py:94-103 | A value is kept iff it occurs non-null. The result is empty iff every value is null. |
| CourseMerge.PresentCounts | merge_course_changes.py:94-107 | Each non-null value is kept as many times as it occurs, so the mean at line 107 averages every occurrence. |
| CourseMerge.MaxPresent | merge_course_changes.py:81-92 | `max(..., default=None)` is None iff all values are null; otherwise it is a present value no smaller than any other. |
| CourseMerge.CombineMerges | merge_course_changes.py:73-109 | `Combine`, the merged entry of a run, is the first entry with these changes: the text runs from the first course to the last `to`; the position is the last entry's if it has one; `maxSpeed` and `maxWind` are the largest present values; the wind speed is the mean and the direction the circular mean of the present values. Each wind value the group lacks, and every other key, stays as in the first entry. |
| CourseMerge.MergeIsPerGroup | merge_course_changes.py:53-114 | `Merge`, the recursive reference of the whole merge, emits one entry per group of the partition, in order: `MergeGroup` of each group, which is the entry itself for a group of one and `Combine` of its records otherwise (lines 70-110). |
| CourseMerge.ScanRun | merge_course_changes.py:58-68 | The inner loop stops exactly at the end of the group and has collected the group's mappings. |
| CourseMerge.CombineRun | merge_course_changes.py:73-109 | The key-by-key updates of the copy produce the merged entry. |
| CourseMerge.MergeFrom | merge_course_changes.py:53-114 | Merging from a group boundary emits that group's entry and continues from the group's end. |
| CourseMerge.SingleGroup | merge_course_changes.py:111-113 | An entry that is not a course change is a group of its own and is emitted unchanged. |
| CourseMerge.MergeStep | merge_course_changes.py:53-113 | One pass of the outer loop advances by at least one entry and emits the next entry of the merged log; the merge of what remains starts where the pass stopped. |
| CourseMerge.MergeEntries | merge_course_changes.py:49-114 | The nested loops compute `Merge`, the group-by-group merge. |
| CourseMerge.MergeLength | merge_course_changes.py:49-114 | The output is never longer than the input, and is non-empty when the input is. |
| CourseMerge.MergeUnchanged | merge_course_changes.py:70-72 | A log with no two successive course changes from the same course passes through unchanged. |
| CourseMerge.MergeShrinks | merge_course_changes.py:61-110 | A log with two such successive entries comes out strictly shorter. |
| CourseMerge.MergeGroupCourse | merge_course_changes.py:70-76 | The emitted entry is a course change iff its group's first entry is one, from the same course, provided that the group satisfies `ReadsBackIn`, so that the text written for its first and last course changes parses back as their courses. |
| CourseMerge.NextGroupSeparate | merge_course_changes.py:61-76 | The entry emitted for a group is never continued by the entry emitted for the next group, under `ReadsBackIn`: the run ended because the next entry does not start from the same course. |
| CourseMerge.MergedHasNoRuns | merge_course_changes.py:61-76 | After merging, no course change is followed by one from the same course, provided that for every two course changes of the log, the text written from the earlier one's course to the later one's parses back as those courses (`ReadsBackIn`). |
| CourseMerge.MergeIdempotent | merge_course_changes.py:49-114 | Merging a merged log changes nothing, under the same condition on the log (`ReadsBackIn`). |

## Left out

- Reading inputs is not modelled. This covers loading JSON and YAML, `parse_iso8601`, the one-hour exclusion window at each end of a voyage, and points with missing fields. `LogPoint` is a point that has passed those checks.
- `make_plot`, `write_polar_table`, the command-line `main` functions, and `merge_course_changes_dir.py` are output and driver code; they are not part of this model.
- Floating point is modelled as exact reals. Rounding in the percentile, the mean, the bucket division and `isclose` is not modelled.
- Radians are not modelled. `Sample.theta` is stored in degrees, so the `math.radians`/`math.degrees` conversions and their rounding disappear.
- `IsClose` models `math.isclose` exactly on reals, with relative tolerance 1e-9 and absolute tolerance 1e-6.
- `BucketByAngle` requires a positive bin size: its `nat` type and `requires` exclude zero and negative sizes. The source divides by `bin_size`, so zero raises an error. The command line also accepts negative sizes, and the source then runs: `//` by a negative size rounds the other way, so keys can leave [0, 360) (bin size −10 at 0° gives `(0 − 5.0) % 360 == 355.0` and `int((355.0 // -10) * -10) == 360`). Negative sizes are not modelled.
- `int(...)` at line 199 truncates toward zero. Its argument is never negative, so truncation equals `Floor`.
- `SurvivingPoints` scans the candidate centres 0..359 in order rather than the sorted keys. Every key is proved to be such a centre, so the two visit the same buckets in the same order.
- `PolarStats.Percentile`: the `ValueError` for an empty input becomes `None`. `RemoveOutliersNonEmpty` shows that the pipeline never reaches it.
- The check `mirrored_angle <= 330.0` at line 189 always passes, because kept angles are at least 30°. `ClassifiedSamplesFoldBack` proves this.
- `CategorizeWindSpeed` returns the band's index rather than its label. The labels are distinct and non-empty, so the test at line 179 behaves the same.
- Both `InterpolateSpeed` and `BisectLeft` find the first angle at or above the target, which is what `bisect_left` does on ascending angles. The lemmas about them assume ascending angles; `bisect_left` on unsorted input is not modelled.
- `InterpolateBelowFirst` requires all angles to lie in [0, 360], as every curve built here does. With huge angles the relative tolerance of `isclose` can report a match before the first point.
- `generate_polar.py` contains no B-spline fitting, and none is modelled.
- `parse_course_change` is a parameter `Text -> Option<Course>`. Its regular expression is not modelled.
- `circular_mean` is a parameter `seq<real> -> real`. Its trigonometry is floating point.
- `Combine`: for `maxSpeed`, `maxWind` and the wind speed and direction, an absent key and a null value are both `None`. For `position`, `None` is an absent key, and a null position is the value `NullPosition`, because line 78 tests only for the key.
- `Combine`: a `wind` key holding null makes line 95 raise in the source. The model's `wind` is either absent or a mapping.
- `Combine`: the model returns a fresh value. In the source, `group[0].copy()` is shallow, so when the first entry has a `wind` mapping, `setdefault("wind", {})` returns that same mapping and the merge also overwrites, in place, whichever of the input's first entry's wind speed and direction the group supplies. Without one, a fresh `{}` goes into the copy and the input is left alone. That aliasing is not modelled.
- `AnchorEnds` and `AggregatedCurve` skip the stable sort by angle at line 247. `CurvePoints` ensures the points are already strictly increasing in angle, so that sort leaves them as they are; the sort itself is not modelled.
- `MergeIdempotent`, `MergedHasNoRuns`, `NextGroupSeparate` and `MergeGroupCourse` assume a condition on the log, `ReadsBackIn`: for any two course changes, the earlier first, the text "Course change: <earlier from>° → <later to>°" parses back as exactly those two courses. It holds for a log whose courses `{:g}` prints exactly, such as whole degrees. The `{:g}` format keeps six significant digits, so it fails for a log with a course that needs more digits. For example, "Course change: 123.4567° → 130°" and "Course change: 123.4567° → 140°" merge into "Course change: 123.457° → 140°", and a following "Course change: 123.457° → 150°" stays separate, so the source's output can still hold a run.

=== FILE: course_merge.dfy ===
/**
 * `merge_entries` of merge_course_changes.py: every maximal run of
 * consecutive "course change" log entries that start from the same course is
 * collapsed into one entry; every other entry passes through unchanged.
 */
module CourseMerge {
  import opened Optional
  import opened Stats

  /** The value of a `position` key, which may itself be null. */
  datatype Position = NullPosition | LatLon(latitude: real, longitude: real)

  /** The keys of a log entry that the merge never reads, carried along as they are. */
  type Fields = map<string, string>

  /** The `wind` mapping of an entry; `None` in a field means the key is absent or null. */
  datatype Wind = Wind(speed: Option<real>, direction: Option<real>, rest: Fields)

  /**
   * The `text` of an entry: absent, free text, or the course-change text the
   * merge writes, "Course change: <from>° → <to>°".
   */
  datatype Text = NoText | Free(s: string) | CourseText(from: real, to: real)

  /**
   * A log entry that is a mapping. `position` is `None` when the key is
   * absent; in the other optional fields `None` means absent or null.
   */
  datatype LogRecord = LogRecord(
    text: Text,
    position: Option<Position>,
    maxSpeed: Option<real>,
    maxWind: Option<real>,
    wind: Option<Wind>,
    rest: Fields)

  /** An element of the log: a mapping, or any other YAML value. */
  datatype Entry = Record(rec: LogRecord) | Other(raw: string)

  /** The (from, to) courses `parse_course_change` extracts from a course-change text. */
  datatype Course = Course(from: real, to: real)

  /** `parse_course_change(entry) if isinstance(entry, dict) else None`. */
  function ParseEntry(parse: Text -> Option<Course>, e: Entry): Option<Course>
  {
    match e
    case Record(r) => parse(r.text)
    case Other(_) => None
  }

  /** Whether `e` is a course change starting from `from`, so that it extends a run. */
  predicate Continues(parse: Text -> Option<Course>, e: Entry, from: real)
  {
    ParseEntry(parse, e).Some? && ParseEntry(parse, e).value.from == from
  }

  /** The length of the longest prefix of `es` made of course changes from `from`. */
  function RunLength(parse: Text -> Option<Course>, es: seq<Entry>, from: real): (k: nat)
    ensures k <= |es|
    ensures forall j :: 0 <= j < k ==> Continues(parse, es[j], from)
    ensures k < |es| ==> !Continues(parse, es[k], from)
  {
    if es == [] || !Continues(parse, es[0], from) then 0
    else 1 + RunLength(parse, es[1..], from)
  }

  /**
   * A group: a single entry that is not a course change, or a course change
   * followed by course changes from the same course.
   */
  predicate IsGroup(parse: Text -> Option<Course>, g: seq<Entry>)
  {
    && g != []
    && (ParseEntry(parse, g[0]).None? ==> |g| == 1)
    && (ParseEntry(parse, g[0]).Some? ==>
          forall j :: 0 < j < |g| ==> Continues(parse, g[j], ParseEntry(parse, g[0]).value.from))
  }

  /** The size of the group that starts `es`: a whole run for a course change, else one entry. */
  function GroupLength(parse: Text -> Option<Course>, es: seq<Entry>): (k: nat)
    requires es != []
    ensures 1 <= k <= |es|
    ensures IsGroup(parse, es[..k])
  {
    match ParseEntry(parse, es[0])
    case None => 1
    case Some(c) => 1 + RunLength(parse, es[1..], c.from)
  }

  /** A run is not followed by a course change from its own starting course. */
  predicate Separated(parse: Text -> Option<Course>, g: seq<Entry>, next: seq<Entry>)
  {
    g != [] && next != [] &&
    (ParseEntry(parse, g[0]).Some? ==> !Continues(parse, next[0], ParseEntry(parse, g[0]).value.from))
  }

  function Flatten(gs: seq<seq<Entry>>): seq<Entry>
  {
    if gs == [] then [] else gs[0] + Flatten(gs[1..])
  }

  /**
   * The partition `merge_entries` walks: the groups, in order, that
   * concatenate back to the input, each one maximal (the entry after a run
   * does not continue it).
   */
  function Groups(parse: Text -> Option<Course>, es: seq<Entry>): (gs: seq<seq<Entry>>)
    ensures Flatten(gs) == es
    ensures forall i :: 0 <= i < |gs| ==> IsGroup(parse, gs[i])
    ensures forall i :: 0 <= i < |gs| - 1 ==> Separated(parse, gs[i], gs[i + 1])
    decreases |es|
  {
    if es == [] then []
    else
      var k := GroupLength(parse, es);
      var rest := Groups(parse, es[k..]);
      assert es[..k] + es[k..] == es;
      assert k < |es| ==> Flatten(rest)[0] == es[k];
      [es[..k]] + rest
  }

  /** The mappings of a group whose members are all mappings. */
  function Records(g: seq<Entry>): (rs: seq<LogRecord>)
    requires forall j :: 0 <= j < |g| ==> g[j].Record?
    ensures |rs| == |g| && forall j :: 0 <= j < |g| ==> rs[j] == g[j].rec
  {
    if g == [] then [] else [g[0].rec] + Records(g[1..])
  }

  /** The values present (neither absent nor null), in order. */
  function Present(xs: seq<Option<real>>): (vs: seq<real>)
    ensures forall v :: v in vs <==> Some(v) in xs
    ensures vs == [] <==> forall i :: 0 <= i < |xs| ==> xs[i].None?
  {
    if xs == [] then []
    else
      assert forall i :: 0 < i < |xs| ==> xs[i] == xs[1..][i - 1];
      (if xs[0].Some? then [xs[0].value] else []) + Present(xs[1..])
  }

  /** Each present value is kept as many times as it occurs, so sums and means see every occurrence. */
  lemma {:induction false} PresentCounts(xs: seq<Option<real>>)
    ensures forall v :: multiset(Present(xs))[v] == multiset(xs)[Some(v)]
  {
    if xs != [] {
      PresentCounts(xs[1..]);
      assert xs == [xs[0]] + xs[1..];
    }
  }

  /**
   * `max(values that are not None, default=None)`: `None` exactly when no
   * value is present, otherwise a present value at least as large as all others.
   */
  function MaxPresent(xs: seq<Option<real>>): (r: Option<real>)
    ensures r.None? <==> forall i :: 0 <= i < |xs| ==> xs[i].None?
    ensures r.Some? ==> r in xs && forall i :: 0 <= i < |xs| && xs[i].Some? ==> xs[i].value <= r.value
  {
    if xs == [] then None
    else
      var rest := MaxPresent(xs[1..]);
      assert forall i :: 0 < i < |xs| ==> xs[i] == xs[1..][i - 1];
      match xs[0]
      case None => rest
      case Some(v) => if rest.Some? && rest.value > v then rest else Some(v)
  }

  function MaxSpeeds(group: seq<LogRecord>): seq<Option<real>>
  {
    seq(|group|, j requires 0 <= j < |group| => group[j].maxSpeed)
  }

  function MaxWinds(group: seq<LogRecord>): seq<Option<real>>
  {
    seq(|group|, j requires 0 <= j < |group| => group[j].maxWind)
  }

  /** `e.get("wind", {}).get("speed")` of each member. */
  function WindSpeeds(group: seq<LogRecord>): seq<Option<real>>
  {
    seq(|group|, j requires 0 <= j < |group| => if group[j].wind.Some? then group[j].wind.value.speed else None)
  }

  /** `e.get("wind", {}).get("direction")` of each member. */
  function WindDirections(group: seq<LogRecord>): seq<Option<real>>
  {
    seq(|group|, j requires 0 <= j < |group| => if group[j].wind.Some? then group[j].wind.value.direction else None)
  }

  /**
   * The merged entry of a run of two or more course changes: a copy of the
   * first member whose text runs from the first `from` to the last `to`, whose
   * position is the last member's when it has one, whose `maxSpeed` and
   * `maxWind` are the largest present, and whose wind speed is the mean and
   * wind direction the circular mean of the present values.
   */
  function Combine(group: seq<LogRecord>, from: real, to: real, circularMean: seq<real> -> real): LogRecord
    requires group != []
  {
    var first, last := group[0], group[|group| - 1];
    var maxSpeed, maxWind := MaxPresent(MaxSpeeds(group)), MaxPresent(MaxWinds(group));
    var speeds, dirs := Present(WindSpeeds(group)), Present(WindDirections(group));
    var base := if first.wind.Some? then first.wind.value else Wind(None, None, map[]);
    first.(
      text := CourseText(from, to),
      position := if last.position.Some? then last.position else first.position,
      maxSpeed := if maxSpeed.Some? then maxSpeed else first.maxSpeed,
      maxWind := if maxWind.Some? then maxWind else first.maxWind,
      wind := if speeds == [] && dirs == [] then first.wind
              else Some(base.(
                speed := if speeds != [] then Some(Mean(speeds)) else base.speed,
                direction := if dirs != [] then Some(circularMean(dirs)) else base.direction)))
  }

  /**
   * The merged entry of a run: the text runs from the first course to the
   * last `to`; the position is the last member's when it has one; `maxSpeed`
   * and `maxWind` are the largest present values; the wind speed is the mean
   * and the wind direction the circular mean of the present values; what the
   * group lacks, and every other key, stays as in the first member.
   */
  lemma {:induction false} CombineMerges(group: seq<LogRecord>, from: real, to: real, circularMean: seq<real> -> real)
    requires group != []
    ensures var r, first, last := Combine(group, from, to, circularMean), group[0], group[|group| - 1];
            && r.text == CourseText(from, to)
            && r.rest == first.rest
            && r.position == (if last.position.Some? then last.position else first.position)
            && r.maxSpeed == MaxPresent(MaxSpeeds(group))
            && r.maxWind == MaxPresent(MaxWinds(group))
    ensures var r, first := Combine(group, from, to, circularMean), group[0];
            var speeds, dirs := Present(WindSpeeds(group)), Present(WindDirections(group));
            && (r.wind.None? <==> first.wind.None? && speeds == [] && dirs == [])
            && (speeds == [] && dirs == [] ==> r.wind == first.wind)
            && (r.wind.Some? && first.wind.Some? ==> r.wind.value.rest == first.wind.value.rest)
            && (speeds != [] ==> r.wind.Some? && r.wind.value.speed == Some(Mean(speeds)))
            && (speeds == [] && first.wind.Some? ==> r.wind.Some? && r.wind.value.speed == first.wind.value.speed)
            && (dirs != [] ==> r.wind.Some? && r.wind.value.direction == Some(circularMean(dirs)))
            && (dirs == [] && first.wind.Some? ==> r.wind.Some? && r.wind.value.direction == first.wind.value.direction)
  {
  }

  /** What `merge_entries` emits for one group: a single entry as it is, a run as one merged entry. */
  function MergeGroup(parse: Text -> Option<Course>, circularMean: seq<real> -> real, g: seq<Entry>): Entry
    requires IsGroup(parse, g)
  {
    if |g| == 1 then g[0]
    else
      var from := ParseEntry(parse, g[0]).value.from;
      var to := ParseEntry(parse, g[|g| - 1]).value.to;
      Record(Combine(Records(g), from, to, circularMean))
  }

  function MergeGroups(parse: Text -> Option<Course>, circularMean: seq<real> -> real, gs: seq<seq<Entry>>): seq<Entry>
    requires forall i :: 0 <= i < |gs| ==> IsGroup(parse, gs[i])
  {
    if gs == [] then [] else [MergeGroup(parse, circularMean, gs[0])] + MergeGroups(parse, circularMean, gs[1..])
  }

  /** The result of `merge_entries`: one entry per group, in order. */
  function Merge(parse: Text -> Option<Course>, circularMean: seq<real> -> real, es: seq<Entry>): seq<Entry>
    decreases |es|
  {
    if es == [] then []
    else
      var k := GroupLength(parse, es);
      [MergeGroup(parse, circularMean, es[..k])] + Merge(parse, circularMean, es[k..])
  }

  /** The merge emits, in order, the merged form of each group of the partition. */
  lemma {:induction false} MergeIsPerGroup(parse: Text -> Option<Course>, circularMean: seq<real> -> real, es: seq<Entry>)
    ensures Merge(parse, circularMean, es) == MergeGroups(parse, circularMean, Groups(parse, es))
    decreases |es|
  {
    if es != [] {
      var k := GroupLength(parse, es);
      MergeIsPerGroup(parse, circularMean, es[k..]);
    }
  }

  /** After a full run is scanned the scan has consumed exactly the group. */
  lemma {:induction false} RunScanned(parse: Text -> Option<Course>, es: seq<Entry>, from: real, k: nat)
    requires k <= |es|
    requires forall j :: 0 <= j < k ==> Continues(parse, es[j], from)
    requires k < |es| ==> !Continues(parse, es[k], from)
    ensures RunLength(parse, es, from) == k
  {
    if k > 0 {
      RunScanned(parse, es[1..], from, k - 1);
    }
  }

  /** Appending a mapping to a group appends its record. */
  lemma {:induction false} RecordsAppend(g: seq<Entry>, e: Entry)
    requires (forall j :: 0 <= j < |g| ==> g[j].Record?) && e.Record?
    ensures Records(g + [e]) == Records(g) + [e.rec]
  {
    var rs := Records(g + [e]);
    assert forall j :: 0 <= j < |g| ==> (g + [e])[j] == g[j];
  }

  /**
   * The inner loop of `merge_entries`: from the course change at `start`,
   * collects the mappings of the following course changes from the same
   * course and returns where the run ends.
   */
  method ScanRun(parse: Text -> Option<Course>, entries: seq<Entry>, start: nat, fromCourse: real)
    returns (end: nat, group: seq<LogRecord>)
    requires start < |entries| && entries[start].Record?
    requires Continues(parse, entries[start], fromCourse)
    ensures end == start + GroupLength(parse, entries[start..])
    ensures forall j :: start <= j < end ==> entries[j].Record?
    ensures group == Records(entries[start..end])
  {
    group := [entries[start].rec];
    end := start + 1;
    while end < |entries|
      invariant start < end <= |entries|
      invariant forall j :: start < j < end ==> Continues(parse, entries[j], fromCourse)
      invariant forall j :: start <= j < end ==> entries[j].Record?
      invariant group == Records(entries[start..end])
    {
      var next := entries[end];
      var parsed := ParseEntry(parse, next);
      if parsed.Some? && parsed.value.from == fromCourse {
        assert entries[start..end + 1] == entries[start..end] + [next];
        RecordsAppend(entries[start..end], next);
        group := group + [next.rec];
        end := end + 1;
      } else {
        break;
      }
    }
    RunScanned(parse, entries[start + 1..], fromCourse, end - start - 1);
    assert entries[start..][1..] == entries[start + 1..];
  }

  /**
   * The merged entry of a run, built as `merge_entries` builds it: a copy of
   * the first mapping whose keys are overwritten one by one.
   */
  method CombineRun(group: seq<LogRecord>, fromCourse: real, finalTo: real, circularMean: seq<real> -> real)
    returns (combined: LogRecord)
    requires group != []
    ensures combined == Combine(group, fromCourse, finalTo, circularMean)
  {
    combined := group[0];
    combined := combined.(text := CourseText(fromCourse, finalTo));
    var last := group[|group| - 1];
    if last.position.Some? {
      combined := combined.(position := last.position);
    }
    var maxSpeed := MaxPresent(MaxSpeeds(group));
    if maxSpeed.Some? {
      combined := combined.(maxSpeed := maxSpeed);
    }
    var maxWind := MaxPresent(MaxWinds(group));
    if maxWind.Some? {
      combined := combined.(maxWind := maxWind);
    }
    var windSpeeds := Present(WindSpeeds(group));
    var windDirections := Present(WindDirections(group));
    if windSpeeds != [] || windDirections != [] {
      var wind := if combined.wind.Some? then combined.wind.value else Wind(None, None, map[]);
      if windSpeeds != [] {
        wind := wind.(speed := Some(Mean(windSpeeds)));
      }
      if windDirections != [] {
        wind := wind.(direction := Some(circularMean(windDirections)));
      }
      combined := combined.(wind := Some(wind));
    }
  }

  /** Merging from position `i` emits the group that starts there, then merges from `end`, where the group ends. */
  lemma {:induction false} MergeFrom(parse: Text -> Option<Course>, circularMean: seq<real> -> real, es: seq<Entry>, i: nat, end: nat, out: Entry)
    requires i < |es| && end == i + GroupLength(parse, es[i..])
    requires IsGroup(parse, es[i..end]) && out == MergeGroup(parse, circularMean, es[i..end])
    ensures end <= |es|
    ensures Merge(parse, circularMean, es[i..]) == [out] + Merge(parse, circularMean, es[end..])
  {
    var t := es[i..];
    assert t[..end - i] == es[i..end];
    assert t[end - i..] == es[end..];
    MergeHead(parse, circularMean, t, end - i, out);
  }

  lemma {:induction false} MergeHead(parse: Text -> Option<Course>, circularMean: seq<real> -> real, t: seq<Entry>, k: nat, out: Entry)
    requires t != [] && k == GroupLength(parse, t) && out == MergeGroup(parse, circularMean, t[..k])
    ensures Merge(parse, circularMean, t) == [out] + Merge(parse, circularMean, t[k..])
  {
  }

  /** An entry that is not a course change is a group of its own and is emitted unchanged. */
  lemma {:induction false} SingleGroup(parse: Text -> Option<Course>, circularMean: seq<real> -> real, es: seq<Entry>, i: nat)
    requires i < |es| && ParseEntry(parse, es[i]).None?
    ensures Merge(parse, circularMean, es[i..]) == [es[i]] + Merge(parse, circularMean, es[i + 1..])
  {
    assert GroupLength(parse, es[i..]) == 1;
    MergeFrom(parse, circularMean, es, i, i + 1, es[i]);
  }

  /**
   * One pass of the outer loop of `merge_entries` at position `start`: an
   * entry that is not a course change is emitted as it is; a course change
   * has its run scanned and is emitted as it is when the run has one entry,
   * as the merged entry otherwise. Either way the output is the merge of the
   * group starting at `start`.
   */
  method MergeStep(parse: Text -> Option<Course>, circularMean: seq<real> -> real, entries: seq<Entry>, start: nat)
    returns (end: nat, out: Entry)
    requires start < |entries|
    ensures start < end <= |entries|
    ensures Merge(parse, circularMean, entries[start..]) == [out] + Merge(parse, circularMean, entries[end..])
  {
    var entry := entries[start];
    var parsed := ParseEntry(parse, entry);
    if parsed.None? {
      SingleGroup(parse, circularMean, entries, start);
      return start + 1, entry;
    }
    var fromCourse := parsed.value.from;
    var group;
    end, group := ScanRun(parse, entries, start, fromCourse);
    ghost var g := entries[start..end];
    assert entries[start..][..end - start] == g;
    if |group| == 1 {
      out := entry;
    } else {
      assert g[|g| - 1] == entries[end - 1] && g[0] == entry;
      var finalTo := ParseEntry(parse, entries[end - 1]).value.to;
      var combined := CombineRun(group, fromCourse, finalTo, circularMean);
      out := Record(combined);
    }
    MergeFrom(parse, circularMean, entries, start, end, out);
  }

  lemma {:induction false} Emitted(merged: seq<Entry>, out: Entry, rest: seq<Entry>, tail: seq<Entry>)
    requires rest == [out] + tail
    ensures merged + rest == (merged + [out]) + tail
  {
  }

  /**
   * `merge_entries`: walks the entries once; a course change starts a group
   * that the inner loop extends while the next entry is a course change from
   * the same course; a group of one and every other entry are emitted as
   * they are, a longer group as one merged entry.
   */
  method MergeEntries(parse: Text -> Option<Course>, circularMean: seq<real> -> real, entries: seq<Entry>)
    returns (merged: seq<Entry>)
    ensures merged == Merge(parse, circularMean, entries)
  {
    merged := [];
    var i := 0;
    while i < |entries|
      invariant 0 <= i <= |entries|
      invariant merged + Merge(parse, circularMean, entries[i..]) == Merge(parse, circularMean, entries)
    {
      var next, out := MergeStep(parse, circularMean, entries, i);
      Emitted(merged, out, Merge(parse, circularMean, entries[i..]), Merge(parse, circularMean, entries[next..]));
      merged := merged + [out];
      i := next;
    }
  }

  /** The merge never produces more entries than it reads, and produces some when it reads some. */
  lemma {:induction false} MergeLength(parse: Text -> Option<Course>, circularMean: seq<real> -> real, es: seq<Entry>)
    ensures |Merge(parse, circularMean, es)| <= |es|
    ensures es != [] ==> Merge(parse, circularMean, es) != []
    decreases |es|
  {
    if es != [] {
      MergeLength(parse, circularMean, es[GroupLength(parse, es)..]);
    }
  }

  /** No course change is directly followed by a course change from the same course. */
  predicate NoRuns(parse: Text -> Option<Course>, es: seq<Entry>)
  {
    forall j :: 0 <= j < |es| - 1 && ParseEntry(parse, es[j]).Some? ==>
      !Continues(parse, es[j + 1], ParseEntry(parse, es[j]).value.from)
  }

  lemma {:induction false} NoRunsCons(parse: Text -> Option<Course>, x: Entry, rest: seq<Entry>)
    requires NoRuns(parse, rest)
    requires rest != [] && ParseEntry(parse, x).Some? ==> !Continues(parse, rest[0], ParseEntry(parse, x).value.from)
    ensures NoRuns(parse, [x] + rest)
  {
    var es := [x] + rest;
    forall j | 0 <= j < |es| - 1 && ParseEntry(parse, es[j]).Some?
      ensures !Continues(parse, es[j + 1], ParseEntry(parse, es[j]).value.from)
    {
      if j > 0 {
        assert es[j] == rest[j - 1] && es[j + 1] == rest[j];
      }
    }
  }

  /** A log without two successive course changes from the same course passes through unchanged. */
  lemma {:induction false} MergeUnchanged(parse: Text -> Option<Course>, circularMean: seq<real> -> real, es: seq<Entry>)
    requires NoRuns(parse, es)
    ensures Merge(parse, circularMean, es) == es
    decreases |es|
  {
    if es != [] {
      assert GroupLength(parse, es) == 1 by {
        if ParseEntry(parse, es[0]).Some? && |es| > 1 {
          assert !Continues(parse, es[1], ParseEntry(parse, es[0]).value.from);
          assert es[1..][0] == es[1];
        }
      }
      assert NoRuns(parse, es[1..]) by {
        forall j | 0 <= j < |es[1..]| - 1 && ParseEntry(parse, es[1..][j]).Some?
          ensures !Continues(parse, es[1..][j + 1], ParseEntry(parse, es[1..][j]).value.from)
        {
          assert es[1..][j] == es[j + 1] && es[1..][j + 1] == es[j + 2];
        }
      }
      MergeUnchanged(parse, circularMean, es[1..]);
    }
  }

  /** A log holding two successive course changes from the same course gets strictly shorter. */
  lemma {:induction false} MergeShrinks(parse: Text -> Option<Course>, circularMean: seq<real> -> real, es: seq<Entry>)
    requires !NoRuns(parse, es)
    ensures |Merge(parse, circularMean, es)| < |es|
    decreases |es|
  {
    var k := GroupLength(parse, es);
    MergeLength(parse, circularMean, es[k..]);
    if k == 1 {
      assert !NoRuns(parse, es[1..]) by {
        var j :| 0 <= j < |es| - 1 && ParseEntry(parse, es[j]).Some? &&
                 Continues(parse, es[j + 1], ParseEntry(parse, es[j]).value.from);
        assert j != 0;
        assert es[1..][j - 1] == es[j] && es[1..][j] == es[j + 1];
      }
      MergeShrinks(parse, circularMean, es[1..]);
    }
  }

  /**
   * The text the merge would write for a run from `first` to `last`,
   * "Course change: <first's from>° → <last's to>°", parses back as exactly
   * those two courses.
   */
  predicate WrittenReadsBack(parse: Text -> Option<Course>, first: Entry, last: Entry)
    requires ParseEntry(parse, first).Some? && ParseEntry(parse, last).Some?
  {
    var c := Course(ParseEntry(parse, first).value.from, ParseEntry(parse, last).value.to);
    parse(CourseText(c.from, c.to)) == Some(c)
  }

  /** For every two course changes of the log, the earlier one first, the text written for them reads back. */
  predicate ReadsBackIn(parse: Text -> Option<Course>, es: seq<Entry>)
  {
    forall i, j :: 0 <= i <= j < |es| && ParseEntry(parse, es[i]).Some? && ParseEntry(parse, es[j]).Some? ==>
      WrittenReadsBack(parse, es[i], es[j])
  }

  /** A slice of a log whose written texts read back has the same property. */
  lemma {:induction false} ReadsBackInSlice(parse: Text -> Option<Course>, es: seq<Entry>, lo: nat, hi: nat)
    requires lo <= hi <= |es| && ReadsBackIn(parse, es)
    ensures ReadsBackIn(parse, es[lo..hi])
  {
    var t := es[lo..hi];
    forall i, j | 0 <= i <= j < |t| && ParseEntry(parse, t[i]).Some? && ParseEntry(parse, t[j]).Some?
      ensures WrittenReadsBack(parse, t[i], t[j])
    {
      assert t[i] == es[lo + i] && t[j] == es[lo + j];
    }
  }

  /** The emitted entry of a group is a course change exactly when the group's first entry is, from the same course. */
  lemma {:induction false} MergeGroupCourse(parse: Text -> Option<Course>, circularMean: seq<real> -> real, g: seq<Entry>)
    requires IsGroup(parse, g) && ReadsBackIn(parse, g)
    ensures ParseEntry(parse, MergeGroup(parse, circularMean, g)).Some? == ParseEntry(parse, g[0]).Some?
    ensures ParseEntry(parse, g[0]).Some? ==>
              ParseEntry(parse, MergeGroup(parse, circularMean, g)).value.from == ParseEntry(parse, g[0]).value.from
  {
    if |g| > 1 {
      assert ParseEntry(parse, g[0]).Some? && ParseEntry(parse, g[|g| - 1]).Some?;
      assert WrittenReadsBack(parse, g[0], g[|g| - 1]);
    }
  }

  /** A log whose written texts read back splits into a first group and a rest with the same property. */
  lemma {:induction false} ReadsBackInSplit(parse: Text -> Option<Course>, es: seq<Entry>, k: nat)
    requires k <= |es| && ReadsBackIn(parse, es)
    ensures ReadsBackIn(parse, es[..k]) && ReadsBackIn(parse, es[k..])
  {
    ReadsBackInSlice(parse, es, 0, k);
    assert es[0..k] == es[..k];
    ReadsBackInSlice(parse, es, k, |es|);
    assert es[k..|es|] == es[k..];
  }

  /**
   * The entry emitted for the first group is not continued by the entry
   * emitted for the next group: a group ends where the next entry stops the run.
   */
  lemma {:induction false} NextGroupSeparate(parse: Text -> Option<Course>, circularMean: seq<real> -> real, es: seq<Entry>)
    requires es != [] && ReadsBackIn(parse, es)
    ensures var k := GroupLength(parse, es);
            var out, rest := MergeGroup(parse, circularMean, es[..k]), Merge(parse, circularMean, es[k..]);
            rest != [] && ParseEntry(parse, out).Some? ==> !Continues(parse, rest[0], ParseEntry(parse, out).value.from)
  {
    var k := GroupLength(parse, es);
    var rest := Merge(parse, circularMean, es[k..]);
    ReadsBackInSplit(parse, es, k);
    MergeGroupCourse(parse, circularMean, es[..k]);
    if rest != [] {
      MergeLength(parse, circularMean, es[k..]);
      var k2 := GroupLength(parse, es[k..]);
      assert rest[0] == MergeGroup(parse, circularMean, es[k..][..k2]);
      ReadsBackInSplit(parse, es[k..], k2);
      MergeGroupCourse(parse, circularMean, es[k..][..k2]);
      assert es[k..][..k2][0] == es[k];
      if ParseEntry(parse, es[0]).Some? {
        assert es[1..][k - 1] == es[k];
      }
    }
  }

  /** After merging, no course change is directly followed by one from the same course. */
  lemma {:induction false} MergedHasNoRuns(parse: Text -> Option<Course>, circularMean: seq<real> -> real, es: seq<Entry>)
    requires ReadsBackIn(parse, es)
    ensures NoRuns(parse, Merge(parse, circularMean, es))
    decreases |es|
  {
    if es != [] {
      var k := GroupLength(parse, es);
      ReadsBackInSplit(parse, es, k);
      MergedHasNoRuns(parse, circularMean, es[k..]);
      NextGroupSeparate(parse, circularMean, es);
      NoRunsCons(parse, MergeGroup(parse, circularMean, es[..k]), Merge(parse, circularMean, es[k..]));
    }
  }

  /**
   * Merging twice is merging once, as long as the course-change text that
   * could be written for any two course changes of the log reads back as
   * their courses.
   */
  lemma {:induction false} MergeIdempotent(parse: Text -> Option<Course>, circularMean: seq<real> -> real, es: seq<Entry>)
    requires ReadsBackIn(parse, es)
    ensures Merge(parse, circularMean, Merge(parse, circularMean, es)) == Merge(parse, circularMean, es)
  {
    MergedHasNoRuns(parse, circularMean, es);
    MergeUnchanged(parse, circularMean, Merge(parse, circularMean, es));
  }
}

=== FILE: optional.dfy ===
/** The absent-or-present value used wherever the source returns `None`. */
module Optional {

  datatype Option<+T> = None | Some(value: T)

}

=== FILE: polar_curve.dfy ===
/**
 * Curve synthesis of scripts/generate_polar.py: angle buckets, the moving
 * average, the anchored and smoothed per-band curve, and the table lookup by
 * linear interpolation. Angles are in degrees.
 */
module PolarCurve {
  import opened Optional
  import opened Stats
  import opened PolarStats
  import opened PolarSamples

  /** A curve point: angle in degrees and boat speed. */
  datatype Point = Point(angle: real, speed: real)

  // ---------------------------------------------------------------------------
  // Buckets

  /** For x >= 0 and b > 0, floor(x / b) is non-negative and floor(x / b) * b <= x. */
  lemma {:induction false} FloorDivBelow(x: real, b: real)
    requires x >= 0.0 && b > 0.0
    ensures 0 <= (x / b).Floor
    ensures (x / b).Floor as real * b <= x
  {
    var q := x / b;
    assert q * b == x;
    assert q >= 0.0 by {
      if q < 0.0 { MulLess(q, 0.0, b); }
    }
    if (x / b).Floor as real * b > x {
      MulLess(q, (x / b).Floor as real, b);
    }
  }

  lemma {:induction false} MulMonotone(x: int, y: int, b: int)
    requires x <= y && b > 0
    ensures x * b <= y * b
  {
    assert y * b - x * b == (y - x) * b;
  }

  lemma {:induction false} SmallMultipleIsZero(x: int, b: int)
    requires b > 0 && -b < x * b < b
    ensures x == 0
  {
    if x >= 1 { MulMonotone(1, x, b); }
    if x <= -1 { MulMonotone(x, -1, b); }
  }

  /** A product q * b leaves no remainder modulo b. */
  lemma {:induction false} MultipleMod(q: int, b: int)
    requires b > 0
    ensures (q * b) % b == 0
  {
    var a := q * b;
    var d, r := a / b, a % b;
    assert a == d * b + r;
    assert (q - d) * b == r by {
      assert (q - d) * b == q * b - d * b;
    }
    SmallMultipleIsZero(q - d, b);
  }

  /**
   * The bucket centre of an angle: `int(((angle + bin/2) % 360) // bin * bin)`,
   * nearest-multiple rounding that wraps at 360.
   */
  function BucketOf(angle: real, binSize: nat): (k: int)
    requires binSize > 0
    ensures 0 <= k < 360
    ensures k % binSize == 0
  {
    var x := Mod360(angle + binSize as real / 2.0);
    var q := (x / binSize as real).Floor;
    FloorDivBelow(x, binSize as real);
    MultipleMod(q, binSize);
    q * binSize
  }

  /** Adding a full turn does not change the bucket of an angle. */
  lemma {:induction false} BucketPeriodic(angle: real, binSize: nat)
    requires binSize > 0
    ensures BucketOf(angle + 360.0, binSize) == BucketOf(angle, binSize)
  {
    var y := angle + binSize as real / 2.0;
    var r := Mod360(y);
    var k := ((y - r) / 360.0).Floor;
    Mod360Unique(y + 360.0, r, k + 1);
  }

  /** Reference definition: the speeds of the samples whose bucket is `key`, in order. */
  function StwsIn(samples: seq<Sample>, key: int, binSize: nat): seq<real>
    requires binSize > 0
  {
    if samples == [] then []
    else
      var s := samples[|samples| - 1];
      StwsIn(samples[..|samples| - 1], key, binSize) +
        (if BucketOf(s.angle, binSize) == key then [s.stw] else [])
  }

  /** The number of values held under the keys lo, lo + 1, ..., 359. */
  function SizeFrom(buckets: map<int, seq<real>>, lo: int): nat
    requires lo <= 360
    decreases 360 - lo
  {
    if lo == 360 then 0
    else (if lo in buckets then |buckets[lo]| else 0) + SizeFrom(buckets, lo + 1)
  }

  /** The number of values held under the keys of [0, 360), the only keys a bucket can have. */
  function TotalSize(buckets: map<int, seq<real>>): nat
  {
    SizeFrom(buckets, 0)
  }

  /** Appending one value under a key in [lo, 360) adds one to the count from lo. */
  lemma {:induction false} SizeFromAppend(buckets: map<int, seq<real>>, key: int, v: real, lo: int)
    requires 0 <= lo <= 360 && 0 <= key < 360
    ensures var updated := buckets[key := (if key in buckets then buckets[key] else []) + [v]];
            SizeFrom(updated, lo) == SizeFrom(buckets, lo) + (if lo <= key then 1 else 0)
    decreases 360 - lo
  {
    if lo < 360 {
      SizeFromAppend(buckets, key, v, lo + 1);
    }
  }

  lemma {:induction false} SizeFromEmpty(lo: int)
    requires 0 <= lo <= 360
    ensures SizeFrom(map[], lo) == 0
    decreases 360 - lo
  {
    if lo < 360 {
      SizeFromEmpty(lo + 1);
    }
  }

  /**
   * Reference definition of the buckets: each centre in [0, 360) that some
   * sample rounds into, mapped to the speeds of those samples in order.
   */
  function Buckets(samples: seq<Sample>, binSize: nat): map<int, seq<real>>
    requires binSize > 0
  {
    map key | 0 <= key < 360 && StwsIn(samples, key, binSize) != [] :: StwsIn(samples, key, binSize)
  }

  /** A sample's speed only ever lands under its own bucket centre. */
  lemma {:induction false} StwsInOnlyAtCentres(samples: seq<Sample>, key: int, binSize: nat)
    requires binSize > 0
    requires StwsIn(samples, key, binSize) != []
    ensures 0 <= key < 360 && key % binSize == 0
  {
    var s := samples[|samples| - 1];
    if BucketOf(s.angle, binSize) != key {
      StwsInOnlyAtCentres(samples[..|samples| - 1], key, binSize);
    }
  }

  /** Whether a bucket map has the shape `bucket_by_angle` produces for `samples`. */
  ghost predicate BucketsOf(buckets: map<int, seq<real>>, samples: seq<Sample>, binSize: nat)
    requires binSize > 0
  {
    && (forall key :: key in buckets ==>
          0 <= key < 360 && key % binSize == 0 && buckets[key] != [] &&
          buckets[key] == StwsIn(samples, key, binSize))
    && (forall key :: key !in buckets ==> StwsIn(samples, key, binSize) == [])
  }

  /**
   * `bucket_by_angle`: every key is a multiple of `binSize` in [0, 360) and
   * holds exactly the speeds of the samples that round into it, in order, so
   * the buckets together hold every sample once.
   */
  method BucketByAngle(samples: seq<Sample>, binSize: nat) returns (buckets: map<int, seq<real>>)
    requires binSize > 0
    ensures buckets == Buckets(samples, binSize)
    ensures forall key :: key in buckets ==> 0 <= key < 360 && key % binSize == 0 && buckets[key] != []
    ensures TotalSize(buckets) == |samples|
  {
    buckets := map[];
    SizeFromEmpty(0);
    for i := 0 to |samples|
      invariant BucketsOf(buckets, samples[..i], binSize)
      invariant TotalSize(buckets) == i
    {
      var sample := samples[i];
      var key := BucketOf(sample.angle, binSize);
      SizeFromAppend(buckets, key, sample.stw, 0);
      BucketsStep(buckets, samples, i, binSize);
      buckets := buckets[key := (if key in buckets then buckets[key] else []) + [sample.stw]];
    }
    assert samples[..|samples|] == samples;
    BucketsOfIsBuckets(buckets, samples, binSize);
  }

  /** Appending sample `i` under its bucket centre extends the buckets of the first `i` samples to the first `i + 1`. */
  lemma {:induction false} BucketsStep(buckets: map<int, seq<real>>, samples: seq<Sample>, i: nat, binSize: nat)
    requires binSize > 0 && i < |samples| && BucketsOf(buckets, samples[..i], binSize)
    ensures var key := BucketOf(samples[i].angle, binSize);
            BucketsOf(buckets[key := (if key in buckets then buckets[key] else []) + [samples[i].stw]],
                      samples[..i + 1], binSize)
  {
    assert samples[..i + 1][..i] == samples[..i];
  }

  lemma {:induction false} BucketsOfIsBuckets(buckets: map<int, seq<real>>, samples: seq<Sample>, binSize: nat)
    requires binSize > 0 && BucketsOf(buckets, samples, binSize)
    ensures buckets == Buckets(samples, binSize)
  {
    var spec := Buckets(samples, binSize);
    forall key | key in spec ensures key in buckets {
    }
    assert buckets.Keys == spec.Keys;
  }

  // ---------------------------------------------------------------------------
  // Smoothing

  /** Strictly increasing angles: an ordered curve without duplicate angles. */
  predicate StrictlyIncreasing(points: seq<Point>)
  {
    forall i, j :: 0 <= i < j < |points| ==> points[i].angle < points[j].angle
  }

  function Angles(points: seq<Point>): (r: seq<real>)
    ensures |r| == |points|
    ensures forall i :: 0 <= i < |points| ==> r[i] == points[i].angle
  {
    seq(|points|, i requires 0 <= i < |points| => points[i].angle)
  }

  function Speeds(points: seq<Point>): (r: seq<real>)
    ensures |r| == |points|
    ensures forall i :: 0 <= i < |points| ==> r[i] == points[i].speed
  {
    seq(|points|, i requires 0 <= i < |points| => points[i].speed)
  }

  /** The speeds of the points idx - window .. idx + window, clipped to the curve. */
  function WindowSpeeds(points: seq<Point>, idx: nat, window: int): (ws: seq<real>)
    requires idx < |points| && window > 0
    ensures ws != []
  {
    var start := if idx - window < 0 then 0 else idx - window;
    var end := if idx + window + 1 > |points| then |points| else idx + window + 1;
    Speeds(points[start..end])
  }

  /** The moving average at `idx`. */
  function WindowMean(points: seq<Point>, idx: nat, window: int): real
    requires idx < |points| && window > 0
  {
    Mean(WindowSpeeds(points, idx, window))
  }

  /** The point `smooth_curve` emits at `idx`: the ends as they are, interior points averaged. */
  function SmoothedPoint(points: seq<Point>, idx: nat, window: int): Point
    requires idx < |points| && window > 0
  {
    if idx == 0 || idx == |points| - 1 then points[idx]
    else Point(points[idx].angle, WindowMean(points, idx, window))
  }

  /** What `smooth_curve` returns: the curve itself when short or the window is not positive, else the smoothed point at every index. */
  function Smoothed(points: seq<Point>, window: int): seq<Point>
  {
    if |points| <= 3 || window <= 0 then points
    else seq(|points|, i requires 0 <= i < |points| => SmoothedPoint(points, i, window))
  }

  /** `smooth_curve`: builds the smoothed curve point by point. */
  method SmoothCurve(points: seq<Point>, window: int) returns (smoothed: seq<Point>)
    ensures smoothed == Smoothed(points, window)
  {
    if |points| <= 3 || window <= 0 {
      return points;
    }
    smoothed := [];
    var n := |points|;
    for idx := 0 to n
      invariant |smoothed| == idx
      invariant forall i :: 0 <= i < idx ==> smoothed[i] == SmoothedPoint(points, i, window)
    {
      if idx == 0 || idx == n - 1 {
        smoothed := smoothed + [points[idx]];
      } else {
        var windowSpeeds := WindowSpeeds(points, idx, window);
        smoothed := smoothed + [Point(points[idx].angle, Mean(windowSpeeds))];
      }
    }
  }

  /**
   * Smoothing keeps a short curve or a non-positive window as it is;
   * otherwise it keeps the angles and both end points, and every interior
   * speed becomes the mean of its clipped window, which lies between that
   * window's smallest and largest speed.
   */
  lemma {:induction false} SmoothedShape(points: seq<Point>, window: int)
    ensures var smoothed := Smoothed(points, window);
            && (|points| <= 3 || window <= 0 ==> smoothed == points)
            && |smoothed| == |points|
            && Angles(smoothed) == Angles(points)
            && (|points| > 3 && window > 0 ==>
                  smoothed[0] == points[0] && smoothed[|points| - 1] == points[|points| - 1])
            && (|points| > 3 && window > 0 ==>
                  forall i :: 0 < i < |points| - 1 ==>
                    smoothed[i].speed == WindowMean(points, i, window) &&
                    Minimum(WindowSpeeds(points, i, window)) <= smoothed[i].speed <= Maximum(WindowSpeeds(points, i, window)))
  {
    if |points| > 3 && window > 0 {
      SmoothedPointwise(points, Smoothed(points, window), window);
    }
  }

  /** A curve made of the smoothed point at every index keeps the angles and the ends, and averages the interior. */
  lemma {:induction false} SmoothedPointwise(points: seq<Point>, smoothed: seq<Point>, window: int)
    requires window > 0 && |smoothed| == |points|
    requires forall i :: 0 <= i < |points| ==> smoothed[i] == SmoothedPoint(points, i, window)
    ensures Angles(smoothed) == Angles(points)
    ensures |points| > 0 ==> smoothed[0] == points[0] && smoothed[|points| - 1] == points[|points| - 1]
    ensures forall i :: 0 < i < |points| - 1 ==>
              smoothed[i].speed == WindowMean(points, i, window) &&
              Minimum(WindowSpeeds(points, i, window)) <= smoothed[i].speed <= Maximum(WindowSpeeds(points, i, window))
  {
    assert forall i :: 0 <= i < |points| ==> smoothed[i].angle == points[i].angle;
  }

  // ---------------------------------------------------------------------------
  // Curve assembly

  /** Whether bucket `key` survives outlier removal with at least `minSamples` values. */
  predicate Survives(buckets: map<int, seq<real>>, minSamples: int, key: int)
  {
    key in buckets && |RemoveOutliers(buckets[key])| >= minSamples
  }

  /** The percentile speed of a non-empty bucket after outlier removal. */
  function BucketSpeed(values: seq<real>, pct: real): real
    requires values != []
  {
    var filtered := RemoveOutliers(values);
    RemoveOutliersNonEmpty(values);
    Percentile(filtered, pct).value
  }

  /** A bucket's speed lies between the smallest and the largest value that survive outlier removal. */
  lemma {:induction false} BucketSpeedWithinBucket(values: seq<real>, pct: real)
    requires values != []
    ensures RemoveOutliers(values) != []
    ensures Minimum(RemoveOutliers(values)) <= BucketSpeed(values, pct) <= Maximum(RemoveOutliers(values))
  {
    RemoveOutliersNonEmpty(values);
    PercentileWithinRange(RemoveOutliers(values), pct);
  }

  predicate NonEmptyBuckets(buckets: map<int, seq<real>>)
  {
    forall key :: key in buckets ==> buckets[key] != []
  }

  /**
   * The points `aggregated_curve` appends while walking the bucket keys below
   * `k` in ascending order: one point per surviving bucket, at its centre,
   * with its percentile speed. The walk keeps them in strictly increasing
   * order of whole-degree angles below `k`.
   */
  function CurvePoints(buckets: map<int, seq<real>>, pct: real, minSamples: int, k: int): (r: seq<Point>)
    requires 0 <= k <= 360
    requires NonEmptyBuckets(buckets)
    ensures StrictlyIncreasing(r)
    ensures forall i :: 0 <= i < |r| ==> 0.0 <= r[i].angle < k as real && r[i].angle == r[i].angle.Floor as real
    decreases k
  {
    if k == 0 then []
    else
      var key := k - 1;
      CurvePoints(buckets, pct, minSamples, key) +
        if Survives(buckets, minSamples, key) then [Point(key as real, BucketSpeed(buckets[key], pct))]
        else []
  }

  /** `p` stands for a surviving bucket: it sits at the bucket's centre with the bucket's percentile speed. */
  predicate FromBucket(buckets: map<int, seq<real>>, pct: real, minSamples: int, p: Point)
    requires NonEmptyBuckets(buckets)
  {
    Survives(buckets, minSamples, p.angle.Floor) && p.speed == BucketSpeed(buckets[p.angle.Floor], pct)
  }

  /** Every kept point is a surviving bucket's centre with that bucket's percentile speed. */
  lemma {:induction false} CurvePointsSound(buckets: map<int, seq<real>>, pct: real, minSamples: int, k: int)
    requires 0 <= k <= 360 && NonEmptyBuckets(buckets)
    ensures forall p :: p in CurvePoints(buckets, pct, minSamples, k) ==> FromBucket(buckets, pct, minSamples, p)
    decreases k
  {
    if k > 0 {
      CurvePointsSound(buckets, pct, minSamples, k - 1);
      var prev, r := CurvePoints(buckets, pct, minSamples, k - 1), CurvePoints(buckets, pct, minSamples, k);
      var key := k - 1;
      if Survives(buckets, minSamples, key) {
        var last := Point(key as real, BucketSpeed(buckets[key], pct));
        assert r == prev + [last];
        assert last.angle.Floor == key;
        assert FromBucket(buckets, pct, minSamples, last);
      } else {
        assert r == prev;
      }
    }
  }

  /** Every surviving bucket below `k` is kept, at its centre, with its percentile speed. */
  lemma {:induction false} CurvePointsComplete(buckets: map<int, seq<real>>, pct: real, minSamples: int, k: int)
    requires 0 <= k <= 360 && NonEmptyBuckets(buckets)
    ensures forall key :: 0 <= key < k && Survives(buckets, minSamples, key) ==>
              Point(key as real, BucketSpeed(buckets[key], pct)) in CurvePoints(buckets, pct, minSamples, k)
    decreases k
  {
    if k > 0 {
      CurvePointsComplete(buckets, pct, minSamples, k - 1);
      var prev, r := CurvePoints(buckets, pct, minSamples, k - 1), CurvePoints(buckets, pct, minSamples, k);
      forall key | 0 <= key < k && Survives(buckets, minSamples, key)
        ensures Point(key as real, BucketSpeed(buckets[key], pct)) in r
      {
        if key < k - 1 {
          var p := Point(key as real, BucketSpeed(buckets[key], pct));
          var j :| 0 <= j < |prev| && prev[j] == p;
          assert r[j] == p;
        } else {
          assert r[|r| - 1] == Point(key as real, BucketSpeed(buckets[key], pct));
        }
      }
    }
  }

  /** Every angle lies in [lo, hi]. */
  predicate AnglesWithin(points: seq<Point>, lo: real, hi: real)
  {
    forall i :: 0 <= i < |points| ==> lo <= points[i].angle <= hi
  }

  /**
   * The anchoring step of `aggregated_curve`: no points give the zero curve
   * [(0, 0), (360, 0)]; otherwise the first point becomes (0, 0), by
   * insertion when the lowest angle is above 0 and by overwriting otherwise,
   * and the last becomes (360, 0) in the same way.
   */
  function Anchored(points: seq<Point>): (r: seq<Point>)
    requires StrictlyIncreasing(points) && AnglesWithin(points, 0.0, 360.0)
    ensures |r| >= 2 && r[0] == Point(0.0, 0.0) && r[|r| - 1] == Point(360.0, 0.0)
    ensures StrictlyIncreasing(r) && AnglesWithin(r, 0.0, 360.0)
    ensures points == [] ==> r == [Point(0.0, 0.0), Point(360.0, 0.0)]
    ensures forall p :: p in points && 0.0 < p.angle < 360.0 ==> p in r
    ensures forall i :: 0 < i < |r| - 1 ==> r[i] in points
  {
    if points == [] then [Point(0.0, 0.0), Point(360.0, 0.0)]
    else AnchorLast(AnchorFirst(points))
  }

  /** The low end: insert (0, 0) before a first angle above 0, or overwrite the first point. */
  function AnchorFirst(points: seq<Point>): (r: seq<Point>)
    requires points != [] && StrictlyIncreasing(points) && AnglesWithin(points, 0.0, 360.0)
    ensures r != [] && r[0] == Point(0.0, 0.0)
    ensures StrictlyIncreasing(r) && AnglesWithin(r, 0.0, 360.0)
    ensures forall p :: p in points && 0.0 < p.angle ==> p in r
    ensures forall i :: 0 < i < |r| ==> r[i] in points
  {
    if points[0].angle > 0.0 then [Point(0.0, 0.0)] + points
    else
      var r := points[0 := Point(0.0, 0.0)];
      assert forall j :: 0 < j < |points| ==> r[j] == points[j];
      r
  }

  /** The high end: append (360, 0) after a last angle below 360, or overwrite the last point. */
  function AnchorLast(front: seq<Point>): (r: seq<Point>)
    requires front != [] && front[0] == Point(0.0, 0.0)
    requires StrictlyIncreasing(front) && AnglesWithin(front, 0.0, 360.0)
    ensures |r| >= 2 && r[0] == Point(0.0, 0.0) && r[|r| - 1] == Point(360.0, 0.0)
    ensures StrictlyIncreasing(r) && AnglesWithin(r, 0.0, 360.0)
    ensures forall p :: p in front && p.angle < 360.0 ==> p in r
    ensures forall i :: 0 <= i < |r| - 1 ==> r[i] in front
  {
    var last := |front| - 1;
    if front[last].angle < 360.0 then front + [Point(360.0, 0.0)]
    else
      var r := front[last := Point(360.0, 0.0)];
      assert forall j :: 0 <= j < last ==> r[j] == front[j];
      r
  }

  /** The in-place edits of `aggregated_curve` on its point list: insert or overwrite each end. */
  method AnchorEnds(points: seq<Point>) returns (curve: seq<Point>)
    requires StrictlyIncreasing(points) && AnglesWithin(points, 0.0, 360.0)
    ensures curve == Anchored(points)
  {
    if points == [] {
      curve := [Point(0.0, 0.0), Point(360.0, 0.0)];
      return;
    }
    curve := points;
    if curve[0].angle > 0.0 {
      curve := [Point(0.0, 0.0)] + curve;
    } else {
      curve := curve[0 := Point(0.0, 0.0)];
    }
    ghost var front := curve;
    assert front == AnchorFirst(points);
    if curve[|curve| - 1].angle < 360.0 {
      curve := curve + [Point(360.0, 0.0)];
    } else {
      curve := curve[|curve| - 1 := Point(360.0, 0.0)];
    }
    assert curve == AnchorLast(front);
  }

  /**
   * The loop of `aggregated_curve` over the bucket keys in ascending order
   * (every key lies in [0, 360), so walking 0 .. 359 visits them in sorted
   * order): a bucket whose filtered size reaches `minSamples` contributes its
   * centre and percentile speed.
   */
  method SurvivingPoints(buckets: map<int, seq<real>>, pct: real, minSamples: int)
    returns (curvePoints: seq<Point>)
    requires NonEmptyBuckets(buckets)
    ensures curvePoints == CurvePoints(buckets, pct, minSamples, 360)
  {
    curvePoints := [];
    for k := 0 to 360
      invariant curvePoints == CurvePoints(buckets, pct, minSamples, k)
    {
      if k in buckets {
        var filtered := RemoveOutliers(buckets[k]);
        if |filtered| >= minSamples {
          curvePoints := curvePoints + [Point(k as real, BucketSpeed(buckets[k], pct))];
        }
      }
    }
  }

  /**
   * `aggregated_curve` for one band, in degrees: the anchored curve of the
   * surviving buckets, smoothed with a window of 2. It is strictly increasing
   * in angle, runs from (0, 0) to (360, 0), and is exactly the zero curve when
   * no bucket survives.
   */
  method AggregatedCurve(samples: seq<Sample>, binSize: nat, pct: real, minSamples: int)
    returns (curve: seq<Point>)
    requires binSize > 0
    ensures curve == Smoothed(Anchored(CurvePoints(Buckets(samples, binSize), pct, minSamples, 360)), 2)
    ensures StrictlyIncreasing(curve)
    ensures |curve| >= 2 && curve[0] == Point(0.0, 0.0) && curve[|curve| - 1] == Point(360.0, 0.0)
    ensures CurvePoints(Buckets(samples, binSize), pct, minSamples, 360) == [] ==>
              curve == [Point(0.0, 0.0), Point(360.0, 0.0)]
  {
    var buckets := BucketByAngle(samples, binSize);
    var curvePoints := SurvivingPoints(buckets, pct, minSamples);
    assert curvePoints == CurvePoints(Buckets(samples, binSize), pct, minSamples, 360);
    var anchored := AnchorEnds(curvePoints);
    curve := SmoothCurve(anchored, 2);
    SmoothedAnchored(curvePoints, curve);
  }

  /**
   * The smoothed anchored curve keeps the anchored angles (so it stays
   * strictly increasing) and both anchors; when it has more than three points
   * every interior speed is the window-2 mean of the anchored curve.
   */
  lemma {:induction false} SmoothedAnchored(points: seq<Point>, curve: seq<Point>)
    requires StrictlyIncreasing(points) && AnglesWithin(points, 0.0, 360.0)
    requires curve == Smoothed(Anchored(points), 2)
    ensures Angles(curve) == Angles(Anchored(points))
    ensures StrictlyIncreasing(curve)
    ensures |curve| >= 2 && curve[0] == Point(0.0, 0.0) && curve[|curve| - 1] == Point(360.0, 0.0)
    ensures points == [] ==> curve == [Point(0.0, 0.0), Point(360.0, 0.0)]
    ensures |Anchored(points)| > 3 ==>
              forall i :: 0 < i < |curve| - 1 ==> curve[i].speed == WindowMean(Anchored(points), i, 2)
  {
    var anchored := Anchored(points);
    if |anchored| > 3 {
      SmoothedPointwise(anchored, curve, 2);
    }
    AnglesOrder(curve, anchored);
  }

  /** Two curves with the same angles are ordered alike. */
  lemma {:induction false} AnglesOrder(curve: seq<Point>, model: seq<Point>)
    requires Angles(curve) == Angles(model) && StrictlyIncreasing(model)
    ensures StrictlyIncreasing(curve)
  {
    assert forall i :: 0 <= i < |curve| ==> curve[i].angle == Angles(model)[i] == model[i].angle;
  }

  // ---------------------------------------------------------------------------
  // Table lookup

  function Abs(x: real): real { if x < 0.0 then -x else x }

  function Max(x: real, y: real): real { if x >= y then x else y }

  /** `math.isclose(a, b, abs_tol=1e-6)` with its default relative tolerance 1e-9. */
  predicate IsClose(a: real, b: real)
  {
    Abs(a - b) <= Max(0.000000001 * Max(Abs(a), Abs(b)), 0.000001)
  }

  /** `bisect_left` on the angles: the first index whose angle is not below `target`. */
  function BisectLeft(points: seq<Point>, target: real): (idx: nat)
    ensures idx <= |points|
    ensures forall j :: 0 <= j < idx ==> points[j].angle < target
    ensures idx < |points| ==> points[idx].angle >= target
  {
    if points == [] || points[0].angle >= target then 0
    else 1 + BisectLeft(points[1..], target)
  }

  /** Angles in ascending order (the order `bisect_left` expects). */
  predicate AscendingAngles(points: seq<Point>)
  {
    forall i, j :: 0 <= i < j < |points| ==> points[i].angle <= points[j].angle
  }

  /** The largest gap, in degrees, over which an edge value is extended. */
  const EdgeTolerance: real := 10.0

  /**
   * `interpolate_speed`: the speed at `target` by linear interpolation between
   * the bracketing points, a stored speed on a (near) hit, the edge speed up to
   * 10 degrees beyond either end, and `None` for an empty curve or further out.
   */
  function InterpolateSpeed(points: seq<Point>, target: real): (r: Option<real>)
    ensures points == [] ==> r.None?
  {
    if points == [] then None
    else
      var idx := BisectLeft(points, target);
      if idx < |points| && IsClose(points[idx].angle, target) then Some(points[idx].speed)
      else if idx == 0 then
        var first := points[0];
        if first.angle >= target && first.angle - target <= EdgeTolerance then Some(first.speed) else None
      else if idx == |points| then
        var last := points[|points| - 1];
        if target >= last.angle && target - last.angle <= EdgeTolerance then Some(last.speed) else None
      else
        var left, right := points[idx - 1], points[idx];
        if IsClose(right.angle, left.angle) then Some(left.speed)
        else
          var proportion := (target - left.angle) / (right.angle - left.angle);
          Some(left.speed + proportion * (right.speed - left.speed))
  }

  /** Looking up a point's own angle on an ordered curve returns its stored speed. */
  lemma {:induction false} InterpolateAtPoint(points: seq<Point>, i: nat)
    requires StrictlyIncreasing(points) && i < |points|
    ensures InterpolateSpeed(points, points[i].angle) == Some(points[i].speed)
  {
    var idx := BisectLeft(points, points[i].angle);
    assert idx == i;
  }

  /**
   * Below the first angle the edge speed is returned within 10 degrees and
   * nothing further out (the closeness test cannot widen this for angles in
   * [0, 360]).
   */
  lemma {:induction false} InterpolateBelowFirst(points: seq<Point>, target: real)
    requires AscendingAngles(points) && AnglesWithin(points, 0.0, 360.0)
    requires points != [] && target < points[0].angle
    ensures InterpolateSpeed(points, target) ==
              if points[0].angle - target <= EdgeTolerance then Some(points[0].speed) else None
  {
    assert BisectLeft(points, target) == 0;
  }

  /** Above the last angle the edge speed is returned within 10 degrees, nothing further out. */
  lemma {:induction false} InterpolateAboveLast(points: seq<Point>, target: real)
    requires AscendingAngles(points) && points != [] && target > points[|points| - 1].angle
    ensures InterpolateSpeed(points, target) ==
              if target - points[|points| - 1].angle <= EdgeTolerance then Some(points[|points| - 1].speed) else None
  {
    assert forall j :: 0 <= j < |points| ==> points[j].angle < target;
  }

  /**
   * Strictly inside the angle range the result exists and lies between the
   * speeds of the two points that bracket the target.
   */
  lemma {:induction false} InterpolateBetween(points: seq<Point>, target: real)
    requires AscendingAngles(points) && points != []
    requires points[0].angle < target <= points[|points| - 1].angle
    ensures var idx := BisectLeft(points, target);
            && 0 < idx < |points|
            && points[idx - 1].angle < target <= points[idx].angle
            && InterpolateSpeed(points, target).Some?
            && Between(InterpolateSpeed(points, target).value, points[idx - 1].speed, points[idx].speed)
  {
    var idx := BisectLeft(points, target);
    BisectInside(points, target);
    InterpolateInterior(points, target, idx);
  }

  /** Strictly inside the angle range the insertion index has a point on either side. */
  lemma {:induction false} BisectInside(points: seq<Point>, target: real)
    requires points != [] && points[0].angle < target <= points[|points| - 1].angle
    ensures var idx := BisectLeft(points, target);
            0 < idx < |points| && points[idx - 1].angle < target <= points[idx].angle
  {
  }

  lemma {:induction false} InterpolateInterior(points: seq<Point>, target: real, idx: nat)
    requires idx == BisectLeft(points, target) && 0 < idx < |points|
    requires points[idx - 1].angle < target <= points[idx].angle
    ensures InterpolateSpeed(points, target).Some?
    ensures Between(InterpolateSpeed(points, target).value, points[idx - 1].speed, points[idx].speed)
  {
    var left, right := points[idx - 1], points[idx];
    if !IsClose(right.angle, target) && !IsClose(right.angle, left.angle) {
      LerpByAngle(left, right, target);
    }
  }

  /** `v` lies between `a` and `b`, whichever is larger. */
  predicate Between(v: real, a: real, b: real)
  {
    (a <= b ==> a <= v <= b) && (b <= a ==> b <= v <= a)
  }

  /** The linear interpolation between two points at an angle they bracket stays between their speeds. */
  lemma {:induction false} LerpByAngle(left: Point, right: Point, target: real)
    requires left.angle < target <= right.angle
    ensures var proportion := (target - left.angle) / (right.angle - left.angle);
            Between(left.speed + proportion * (right.speed - left.speed), left.speed, right.speed)
  {
    var d := right.angle - left.angle;
    var proportion := (target - left.angle) / d;
    assert proportion * d == target - left.angle;
    assert 0.0 <= proportion <= 1.0 by {
      if proportion < 0.0 { MulLess(proportion, 0.0, d); }
      if proportion > 1.0 { MulLess(1.0, proportion, d); }
    }
    LerpBetween(left.speed, right.speed, proportion);
  }
}

=== FILE: polar_samples.dfy ===
/**
 * From logbook points to polar samples (scripts/generate_polar.py): the true
 * wind angle folded to [0, 180], the wind-speed bands, the per-point filter
 * with its tack-mirrored duplicate, and the loop that fills one sample list
 * per band. Angles are in degrees throughout.
 */
module PolarSamples {
  import opened Optional

  /** One polar sample: angle in degrees, speed through water in knots. */
  datatype Sample = Sample(angle: real, stw: real)

  /** A wind-speed band [lower, upper); `upper == None` is unbounded. */
  datatype Band = Band(name: string, lower: real, upper: Option<real>)

  /** An already-parsed logbook point: the numeric fields the filter reads. */
  datatype LogPoint = LogPoint(stw: real, sog: real, windSpeed: real, windDirection: real, course: real)

  /** The bands of WIND_BINS, in order. */
  const WindBins: seq<Band> := [
    Band("2.5-7.5 kn", 2.5, Some(7.5)),
    Band("7.5-12.5 kn", 7.5, Some(12.5)),
    Band("12.5-17.5 kn", 12.5, Some(17.5)),
    Band(">17.5 kn", 17.5, None)
  ]

  /** Python's float `x % 360.0`: the representative of x modulo 360 in [0, 360). */
  function Mod360(x: real): (r: real)
    ensures 0.0 <= r < 360.0
    ensures (x - r) / 360.0 == ((x - r) / 360.0).Floor as real
  {
    x - 360.0 * (x / 360.0).Floor as real
  }

  /** Any representative r in [0, 360) of x modulo 360 is the one Mod360 picks. */
  lemma {:induction false} Mod360Unique(x: real, r: real, k: int)
    requires 0.0 <= r < 360.0
    requires x == r + 360.0 * k as real
    ensures Mod360(x) == r
  {
    assert x / 360.0 == r / 360.0 + k as real;
    assert (x / 360.0).Floor == k;
  }

  /** Reflects an angle in [0, 360) above 180 to 360 - angle. */
  function Fold(angle: real): real
  {
    if angle > 180.0 then 360.0 - angle else angle
  }

  /** `true_wind_angle`: angle between course and wind direction, 0 = head to wind, in [0, 180]. */
  function TrueWindAngle(course: real, windDirection: real): (a: real)
    ensures 0.0 <= a <= 180.0
  {
    Fold(Mod360(windDirection - course))
  }

  /** The true wind angle does not depend on which side the wind comes from. */
  lemma {:induction false} TrueWindAngleSymmetric(course: real, windDirection: real)
    ensures TrueWindAngle(course, windDirection) == TrueWindAngle(windDirection, course)
  {
    var d := windDirection - course;
    var a := Mod360(d);
    var k := ((d - a) / 360.0).Floor;
    if a == 0.0 {
      Mod360Unique(-d, 0.0, -k);
    } else {
      Mod360Unique(-d, 360.0 - a, -k - 1);
    }
  }

  /** Adding whole turns to the course does not change the true wind angle. */
  lemma {:induction false} TrueWindAnglePeriodic(course: real, windDirection: real, turns: int)
    ensures TrueWindAngle(course + 360.0 * turns as real, windDirection) == TrueWindAngle(course, windDirection)
  {
    var d := windDirection - course;
    var a := Mod360(d);
    var k := ((d - a) / 360.0).Floor;
    Mod360Unique(d - 360.0 * turns as real, a, k - turns);
  }

  /** Whether `speed` falls in the band. */
  predicate InBand(b: Band, speed: real)
  {
    match b.upper
    case None => speed >= b.lower
    case Some(u) => b.lower <= speed < u
  }

  /** The index of the first band of `bands[from..]` containing `speed`. */
  function FirstBand(bands: seq<Band>, speed: real, from: nat): (r: Option<nat>)
    requires from <= |bands|
    ensures r.Some? ==> from <= r.value < |bands| && InBand(bands[r.value], speed)
    ensures r.Some? ==> forall j :: from <= j < r.value ==> !InBand(bands[j], speed)
    ensures r.None? ==> forall j :: from <= j < |bands| ==> !InBand(bands[j], speed)
    decreases |bands| - from
  {
    if from == |bands| then None
    else if InBand(bands[from], speed) then Some(from)
    else FirstBand(bands, speed, from + 1)
  }

  /** `categorize_wind_speed`: the index in WindBins of the band holding `speed`, if any. */
  function CategorizeWindSpeed(speed: real): Option<nat>
  {
    FirstBand(WindBins, speed, 0)
  }

  /** The bands of WindBins do not overlap, so the band found is the only one. */
  lemma {:induction false} CategorizeUnique(speed: real, i: nat)
    requires i < |WindBins|
    ensures CategorizeWindSpeed(speed) == Some(i) <==> InBand(WindBins[i], speed)
  {
    var r := CategorizeWindSpeed(speed);
    if InBand(WindBins[i], speed) {
      assert r.Some?;
      assert r.value == i;
    }
  }

  /** Below 2.5 knots no band applies; from 2.5 knots up exactly one does. */
  lemma {:induction false} CategorizeCovers(speed: real)
    ensures CategorizeWindSpeed(speed).None? <==> speed < 2.5
  {
    var r := CategorizeWindSpeed(speed);
    if speed >= 2.5 {
      assert InBand(WindBins[0], speed) || InBand(WindBins[1], speed) ||
             InBand(WindBins[2], speed) || InBand(WindBins[3], speed);
    }
  }

  /** What one point contributes: its band and the samples it yields. */
  datatype Classified = Classified(band: nat, samples: seq<Sample>)

  /** Whether the filter in `collect_sailing_samples` drops the point. */
  predicate Dropped(p: LogPoint)
  {
    p.windSpeed <= 0.0 || p.sog > 0.8 * p.windSpeed ||
    CategorizeWindSpeed(p.windSpeed).None? ||
    TrueWindAngle(p.course, p.windDirection) < 30.0
  }

  /**
   * The body of the per-point loop in `collect_sailing_samples`: drop the
   * point, or yield its primary sample and, below 180 degrees, the sample
   * mirrored onto the other tack when that lands at or below 330 degrees.
   */
  function ClassifyPoint(p: LogPoint): (r: Option<Classified>)
    ensures r.None? <==> Dropped(p)
    ensures r.Some? ==> var angle := TrueWindAngle(p.course, p.windDirection);
            && CategorizeWindSpeed(p.windSpeed) == Some(r.value.band)
            && r.value.band < |WindBins|
            && |r.value.samples| == (if angle < 180.0 then 2 else 1)
            && r.value.samples[0] == Sample(angle, p.stw)
            && (angle < 180.0 ==> r.value.samples[1] == Sample(360.0 - angle, p.stw))
  {
    if p.windSpeed <= 0.0 then None
    else if p.sog > 0.8 * p.windSpeed then None
    else
      match CategorizeWindSpeed(p.windSpeed)
      case None => None
      case Some(band) =>
        var angle := TrueWindAngle(p.course, p.windDirection);
        if angle < 30.0 then None
        else
          var primary := [Sample(angle, p.stw)];
          if 0.0 < angle < 180.0 then
            var mirrored := Mod360(360.0 - angle);
            Mod360Unique(360.0 - angle, 360.0 - angle, 0);
            if mirrored <= 330.0 then Some(Classified(band, primary + [Sample(mirrored, p.stw)]))
            else Some(Classified(band, primary))
          else Some(Classified(band, primary))
  }

  /**
   * Every sample of a kept point lies in [30, 330], folds back to the point's
   * true wind angle, and carries the point's speed through water.
   */
  lemma {:induction false} ClassifiedSamplesFoldBack(p: LogPoint)
    requires !Dropped(p)
    ensures var angle := TrueWindAngle(p.course, p.windDirection);
            forall s :: s in ClassifyPoint(p).value.samples ==>
              30.0 <= s.angle <= 330.0 && Fold(s.angle) == angle && s.stw == p.stw
  {
  }

  /** The samples band `b` receives from `points`, in order. */
  function BandSamples(points: seq<LogPoint>, b: nat): seq<Sample>
  {
    if points == [] then []
    else
      var last := points[|points| - 1];
      BandSamples(points[..|points| - 1], b) +
        match ClassifyPoint(last)
        case Some(c) => if c.band == b then c.samples else []
        case None => []
  }

  /** Every sample collected for a band lies in [30, 330] and comes from a point of that band. */
  lemma {:induction false} BandSamplesAngles(points: seq<LogPoint>, b: nat)
    ensures forall s :: s in BandSamples(points, b) ==> 30.0 <= s.angle <= 330.0
    ensures BandSamples(points, b) != [] ==> b < |WindBins|
  {
    if points != [] {
      var last := points[|points| - 1];
      BandSamplesAngles(points[..|points| - 1], b);
      if !Dropped(last) {
        ClassifiedSamplesFoldBack(last);
      }
    }
  }

  /**
   * `collect_sailing_samples` over already-parsed points: one list per band of
   * WindBins, each holding the samples of the kept points of that band in order.
   */
  method CollectSamples(points: seq<LogPoint>) returns (byBand: seq<seq<Sample>>)
    ensures |byBand| == |WindBins|
    ensures forall b :: 0 <= b < |byBand| ==> byBand[b] == BandSamples(points, b)
  {
    byBand := seq(|WindBins|, _ => []);
    for i := 0 to |points|
      invariant |byBand| == |WindBins|
      invariant forall b :: 0 <= b < |byBand| ==> byBand[b] == BandSamples(points[..i], b)
    {
      assert points[..i + 1][..i] == points[..i];
      match ClassifyPoint(points[i])
      case None =>
      case Some(c) =>
        byBand := byBand[c.band := byBand[c.band] + c.samples];
    }
    assert points[..|points|] == points;
  }
}

=== FILE: polar_stats.dfy ===
/**
 * Order statistics of scripts/generate_polar.py: the linearly interpolated
 * percentile (the "R-7" rule that numpy uses by default) and the
 * interquartile-range outlier filter applied to each angle bucket.
 */
module PolarStats {
  import opened Optional
  import opened Stats

  /** `max(0, min(100, pct))`. */
  function ClampPercent(pct: real): (c: real)
    ensures 0.0 <= c <= 100.0
  {
    if pct < 0.0 then 0.0 else if pct > 100.0 then 100.0 else pct
  }

  /** `math.ceil` on reals. */
  function Ceil(x: real): (c: int)
    ensures x <= c as real < x + 1.0
    ensures c == x.Floor || c == x.Floor + 1
  {
    if x.Floor as real == x then x.Floor else x.Floor + 1
  }

  /** The fractional rank `(n - 1) * pct / 100` of the order statistic asked for. */
  function Rank(n: nat, pct: real): (r: real)
    requires n >= 1
    ensures 0.0 <= r <= (n - 1) as real
  {
    var c := ClampPercent(pct) / 100.0;
    MulNonNegative((n - 1) as real, c);
    MulNonNegative((n - 1) as real, 1.0 - c);
    (n - 1) as real * c
  }

  /**
   * `percentile(values, pct)`: `None` stands for the ValueError raised on an
   * empty dataset; a single value is returned as it is; otherwise the value
   * interpolated between the order statistics at the floor and the ceiling of
   * the rank.
   */
  function Percentile(values: seq<real>, pct: real): (r: Option<real>)
    ensures r.None? <==> values == []
  {
    var ordered := Sort(values);
    if |ordered| == 0 then None
    else if |ordered| == 1 then Some(ordered[0])
    else Some(Interpolate(ordered, pct))
  }

  /** The interpolation step of `percentile` on the sorted copy `ordered`. */
  function Interpolate(ordered: seq<real>, pct: real): real
    requires |ordered| >= 2
  {
    var rank := Rank(|ordered|, pct);
    var lower := rank.Floor;
    var upper := Ceil(rank);
    if lower == upper then ordered[lower]
    else
      var fraction := rank - lower as real;
      ordered[lower] + (ordered[upper] - ordered[lower]) * fraction
  }

  /** The interpolation lies between the order statistics at the floor and at the ceiling of the rank. */
  lemma {:induction false} InterpolateBetweenRanks(o: seq<real>, pct: real)
    requires |o| >= 2 && Ascending(o)
    ensures var rank := Rank(|o|, pct);
            0 <= rank.Floor <= Ceil(rank) < |o| &&
            o[rank.Floor] <= Interpolate(o, pct) <= o[Ceil(rank)]
  {
    var rank := Rank(|o|, pct);
    var lower, upper := rank.Floor, Ceil(rank);
    if lower != upper {
      LerpBetween(o[lower], o[upper], rank - lower as real);
    }
  }

  /** On a sorted sequence the interpolation lies between its first and last elements. */
  lemma {:induction false} InterpolateWithinEnds(o: seq<real>, pct: real)
    requires |o| >= 2 && Ascending(o)
    ensures o[0] <= Interpolate(o, pct) <= o[|o| - 1]
  {
    InterpolateBetweenRanks(o, pct);
    var rank := Rank(|o|, pct);
    assert o[0] <= o[rank.Floor];
    assert o[Ceil(rank)] <= o[|o| - 1];
  }

  /** The result lies between the order statistics at the floor and at the ceiling of the rank. */
  lemma {:induction false} PercentileBetweenRanks(values: seq<real>, pct: real)
    requires |values| >= 2
    ensures var o, rank := Sort(values), Rank(|values|, pct);
            0 <= rank.Floor <= Ceil(rank) < |values| &&
            o[rank.Floor] <= Percentile(values, pct).value <= o[Ceil(rank)]
  {
    InterpolateBetweenRanks(Sort(values), pct);
  }

  /** The percentile of a non-empty dataset lies in [min, max]. */
  lemma {:induction false} PercentileWithinRange(values: seq<real>, pct: real)
    requires values != []
    ensures Minimum(values) <= Percentile(values, pct).value <= Maximum(values)
  {
    var o := Sort(values);
    SortedExtremes(values);
    PercentileOfSorted(values, pct);
    if |o| >= 2 {
      InterpolateWithinEnds(o, pct);
    }
  }

  /** A percentile of 0 or below gives the minimum, 100 or above the maximum. */
  lemma {:induction false} PercentileExtremes(values: seq<real>, pct: real)
    requires values != []
    ensures pct <= 0.0 ==> Percentile(values, pct) == Some(Minimum(values))
    ensures pct >= 100.0 ==> Percentile(values, pct) == Some(Maximum(values))
  {
    var o := Sort(values);
    SortedExtremes(values);
    PercentileOfSorted(values, pct);
    if |o| >= 2 {
      InterpolateExtremes(o, pct);
    }
  }

  /** `percentile` reads its result off the sorted copy. */
  lemma {:induction false} PercentileOfSorted(values: seq<real>, pct: real)
    requires values != []
    ensures var o := Sort(values);
            Percentile(values, pct) == Some(if |o| == 1 then o[0] else Interpolate(o, pct))
  {
  }

  /** On a sorted sequence the rank of 0 selects the first element and the rank of 100 the last. */
  lemma {:induction false} InterpolateExtremes(o: seq<real>, pct: real)
    requires |o| >= 2
    ensures pct <= 0.0 ==> Interpolate(o, pct) == o[0]
    ensures pct >= 100.0 ==> Interpolate(o, pct) == o[|o| - 1]
  {
    if pct <= 0.0 {
      assert Rank(|o|, pct) == 0.0;
    }
    if pct >= 100.0 {
      assert Rank(|o|, pct) == (|o| - 1) as real;
    }
  }

  /** The 50th percentile of an odd-length dataset is its exact middle order statistic. */
  lemma {:induction false} PercentileMedianOdd(values: seq<real>)
    requires |values| % 2 == 1
    ensures Percentile(values, 50.0) == Some(Sort(values)[|values| / 2])
  {
    var o := Sort(values);
    if |o| > 1 {
      InterpolateMedianOdd(o);
    }
  }

  lemma {:induction false} InterpolateMedianOdd(o: seq<real>)
    requires |o| >= 2 && |o| % 2 == 1
    ensures Interpolate(o, 50.0) == o[|o| / 2]
  {
    assert Rank(|o|, 50.0) == (|o| / 2) as real;
  }

  /** `[v for v in data if lo <= v <= hi]`. */
  function KeepWithin(data: seq<real>, lo: real, hi: real): (r: seq<real>)
    ensures forall v :: v in r <==> v in data && lo <= v <= hi
    ensures forall v :: multiset(r)[v] == if lo <= v <= hi then multiset(data)[v] else 0
    ensures IsSubsequence(r, data)
  {
    if data == [] then []
    else
      assert data == [data[0]] + data[1..];
      if lo <= data[0] <= hi then [data[0]] + KeepWithin(data[1..], lo, hi)
      else KeepWithin(data[1..], lo, hi)
  }

  /** `sub` is `s` with some elements left out, the rest kept in order. */
  predicate IsSubsequence(sub: seq<real>, s: seq<real>)
    decreases |s|
  {
    if sub == [] then true
    else if s == [] then false
    else (sub[0] == s[0] && IsSubsequence(sub[1..], s[1..])) || IsSubsequence(sub, s[1..])
  }

  /**
   * The acceptance interval of `remove_outliers` for four or more values:
   * [Q1 - 1.5 IQR, Q3 + 1.5 IQR], narrowed to [Q1, Q3] when the IQR is not positive.
   */
  function Fences(data: seq<real>): (f: (real, real))
    requires |data| >= 4
    ensures f.0 <= Percentile(data, 25.0).value <= Percentile(data, 75.0).value <= f.1
  {
    PercentileQuartilesOrdered(data);
    var q1 := Percentile(data, 25.0).value;
    var q3 := Percentile(data, 75.0).value;
    var iqr := q3 - q1;
    if iqr <= 0.0 then (q1, q3) else (q1 - 1.5 * iqr, q3 + 1.5 * iqr)
  }

  /**
   * `remove_outliers`: fewer than four values come back unchanged; otherwise
   * exactly the values inside the fences are kept, in their original order.
   */
  function RemoveOutliers(data: seq<real>): (r: seq<real>)
    ensures |data| < 4 ==> r == data
    ensures |data| >= 4 ==> forall v :: v in r <==> v in data && Fences(data).0 <= v <= Fences(data).1
    ensures |data| >= 4 ==> forall v :: multiset(r)[v] == if Fences(data).0 <= v <= Fences(data).1 then multiset(data)[v] else 0
    ensures IsSubsequence(r, data)
  {
    if |data| < 4 then
      SubsequenceOfItself(data);
      data
    else
      var (lo, hi) := Fences(data);
      KeepWithin(data, lo, hi)
  }

  lemma {:induction false} SubsequenceOfItself(s: seq<real>)
    ensures IsSubsequence(s, s)
  {
    if s != [] {
      SubsequenceOfItself(s[1..]);
    }
  }

  /** A subsequence is never longer than the sequence it is taken from. */
  lemma {:induction false} SubsequenceLength(sub: seq<real>, s: seq<real>)
    requires IsSubsequence(sub, s)
    ensures |sub| <= |s|
    decreases |s|
  {
    if sub != [] {
      if sub[0] == s[0] && IsSubsequence(sub[1..], s[1..]) {
        SubsequenceLength(sub[1..], s[1..]);
      } else {
        SubsequenceLength(sub, s[1..]);
      }
    }
  }

  /**
   * With four or more values the order statistic just above Q1's rank lies
   * at or below Q3's rank, so Q1 <= Q3 and a data value sits between them.
   */
  lemma {:induction false} PercentileQuartilesOrdered(data: seq<real>)
    requires |data| >= 4
    ensures var q1, q3 := Percentile(data, 25.0).value, Percentile(data, 75.0).value;
            q1 <= q3 && exists v :: v in data && q1 <= v <= q3
  {
    var o := Sort(data);
    var u1, l3 := QuartileRanksApart(|data|);
    PercentileBetweenRanks(data, 25.0);
    PercentileBetweenRanks(data, 75.0);
    var v := o[u1];
    assert v <= o[l3];
    assert v in data by {
      assert v in multiset(o);
    }
  }

  /** For n >= 4 the ceiling of Q1's rank does not pass the floor of Q3's rank. */
  lemma {:induction false} QuartileRanksApart(n: nat) returns (u1: int, l3: int)
    requires n >= 4
    ensures u1 == Ceil(Rank(n, 25.0)) && l3 == Rank(n, 75.0).Floor
    ensures 0 <= u1 <= l3 < n
  {
    var r1, r3 := Rank(n, 25.0), Rank(n, 75.0);
    assert r1 == (n - 1) as real * 0.25;
    assert r3 == (n - 1) as real * 0.75;
    u1, l3 := Ceil(r1), r3.Floor;
  }

  /** A non-empty bucket never filters down to nothing, so its percentile exists. */
  lemma {:induction false} RemoveOutliersNonEmpty(data: seq<real>)
    requires data != []
    ensures RemoveOutliers(data) != []
  {
    if |data| >= 4 {
      PercentileQuartilesOrdered(data);
      var v :| v in data && Percentile(data, 25.0).value <= v <= Percentile(data, 75.0).value;
      assert v in RemoveOutliers(data);
    }
  }
}

=== FILE: stats.dfy ===
/**
 * Small numeric helpers shared by the polar pipeline and the course-change
 * merge: sums, arithmetic means, extremes and an ascending sort of real
 * sequences (the behaviour of Python's `sum`, `min`, `max` and `sorted`).
 */
module Stats {

  /** Sum of a sequence, folded from the front. */
  function Sum(xs: seq<real>): real
  {
    if xs == [] then 0.0 else xs[0] + Sum(xs[1..])
  }

  /** The smallest element of a non-empty sequence. */
  function Minimum(xs: seq<real>): (m: real)
    requires xs != []
    ensures m in xs
    ensures forall i :: 0 <= i < |xs| ==> m <= xs[i]
  {
    if |xs| == 1 then xs[0]
    else
      var rest := Minimum(xs[1..]);
      if xs[0] <= rest then xs[0] else rest
  }

  /** The largest element of a non-empty sequence. */
  function Maximum(xs: seq<real>): (m: real)
    requires xs != []
    ensures m in xs
    ensures forall i :: 0 <= i < |xs| ==> xs[i] <= m
  {
    if |xs| == 1 then xs[0]
    else
      var rest := Maximum(xs[1..]);
      if xs[0] >= rest then xs[0] else rest
  }

  /** Every element lies in [lo, hi], so the sum lies in [n*lo, n*hi]. */
  lemma {:induction false} SumBounds(xs: seq<real>, lo: real, hi: real)
    requires forall i :: 0 <= i < |xs| ==> lo <= xs[i] <= hi
    ensures |xs| as real * lo <= Sum(xs) <= |xs| as real * hi
  {
    if xs != [] {
      SumBounds(xs[1..], lo, hi);
    }
  }

  /** Arithmetic mean `sum(xs) / len(xs)`; it never leaves the range of the data. */
  function Mean(xs: seq<real>): (m: real)
    requires xs != []
    ensures Minimum(xs) <= m <= Maximum(xs)
  {
    MeanWithin(xs);
    Sum(xs) / (|xs| as real)
  }

  lemma {:induction false} MeanWithin(xs: seq<real>)
    requires xs != []
    ensures Minimum(xs) <= Sum(xs) / (|xs| as real) <= Maximum(xs)
  {
    AverageWithin(xs, Minimum(xs), Maximum(xs));
  }

  /** Values within [lo, hi] average to a value within [lo, hi]. */
  lemma {:induction false} AverageWithin(xs: seq<real>, lo: real, hi: real)
    requires xs != []
    requires forall i :: 0 <= i < |xs| ==> lo <= xs[i] <= hi
    ensures lo <= Sum(xs) / (|xs| as real) <= hi
  {
    SumBounds(xs, lo, hi);
    DivideBounds(Sum(xs), |xs| as real, lo, hi);
  }

  lemma {:induction false} DivideBounds(s: real, n: real, lo: real, hi: real)
    requires n > 0.0
    requires n * lo <= s <= n * hi
    ensures lo <= s / n <= hi
  {
    var q := s / n;
    assert q * n == s;
    if q < lo { MulLess(q, lo, n); }
    if q > hi { MulLess(hi, q, n); }
  }

  lemma {:induction false} MulLess(a: real, b: real, n: real)
    requires a < b && n > 0.0
    ensures a * n < b * n
  {
    assert (b - a) * n > 0.0;
  }

  lemma {:induction false} MulNonNegative(x: real, y: real)
    requires x >= 0.0 && y >= 0.0
    ensures x * y >= 0.0
  {
  }

  /** Ascending order. */
  predicate Ascending(s: seq<real>)
  {
    forall i, j :: 0 <= i < j < |s| ==> s[i] <= s[j]
  }

  /** Inserts `x` into an ascending sequence, keeping it ascending. */
  function Insert(x: real, s: seq<real>): (r: seq<real>)
    requires Ascending(s)
    ensures Ascending(r)
    ensures multiset(r) == multiset(s) + multiset{x}
  {
    if s == [] || x <= s[0] then
      [x] + s
    else
      var tail := Insert(x, s[1..]);
      assert s == [s[0]] + s[1..];
      BelowAll(s[0], tail, s[1..], x);
      ConsAscending(s[0], tail);
      [s[0]] + tail
  }

  /** Every element of a permutation of `s` plus `x` is at least a common lower bound. */
  lemma {:induction false} BelowAll(lo: real, t: seq<real>, s: seq<real>, x: real)
    requires lo <= x && forall j :: 0 <= j < |s| ==> lo <= s[j]
    requires multiset(t) == multiset(s) + multiset{x}
    ensures forall k :: 0 <= k < |t| ==> lo <= t[k]
  {
    forall k | 0 <= k < |t|
      ensures lo <= t[k]
    {
      assert t[k] in multiset(t);
      if t[k] != x {
        assert t[k] in multiset(s);
      }
    }
  }

  lemma {:induction false} ConsAscending(a: real, t: seq<real>)
    requires Ascending(t) && forall k :: 0 <= k < |t| ==> a <= t[k]
    ensures Ascending([a] + t)
  {
    var r := [a] + t;
    forall i, j | 0 <= i < j < |r|
      ensures r[i] <= r[j]
    {
      assert r[j] == t[j - 1];
      if i > 0 {
        assert r[i] == t[i - 1];
      }
    }
  }

  /** A sorted copy of `s` (Python's `sorted`): ascending and a permutation of `s`. */
  function Sort(s: seq<real>): (r: seq<real>)
    ensures Ascending(r)
    ensures multiset(r) == multiset(s)
    ensures |r| == |s|
  {
    if s == [] then []
    else
      assert s == [s[0]] + s[1..];
      Insert(s[0], Sort(s[1..]))
  }

  /** The first element of a sorted permutation is the minimum, the last the maximum. */
  lemma {:induction false} SortedExtremes(s: seq<real>)
    requires s != []
    ensures Sort(s)[0] == Minimum(s)
    ensures Sort(s)[|s| - 1] == Maximum(s)
  {
    var o := Sort(s);
    AscendingPermutationExtremes(o, s);
    assert |o| == |s|;
  }

  lemma {:induction false} AscendingPermutationExtremes(o: seq<real>, s: seq<real>)
    requires s != [] && Ascending(o) && multiset(o) == multiset(s)
    ensures o[0] == Minimum(s) && o[|o| - 1] == Maximum(s)
  {
    assert |o| == |s| by {
      assert |multiset(o)| == |multiset(s)|;
    }
    assert o[0] in multiset(s) && o[|o| - 1] in multiset(s);
    var lo, hi := Minimum(s), Maximum(s);
    assert lo in multiset(o) && hi in multiset(o);
    var i :| 0 <= i < |o| && o[i] == lo;
    var j :| 0 <= j < |o| && o[j] == hi;
    assert o[0] <= o[i] && o[j] <= o[|o| - 1];
  }

  /** Scales linearly between `a` and `b`: `a + (b - a) * f`, for `f` in [0, 1], stays between them. */
  lemma {:induction false} LerpBetween(a: real, b: real, f: real)
    requires 0.0 <= f <= 1.0
    ensures a <= b ==> a <= a + (b - a) * f <= b
    ensures b <= a ==> b <= a + (b - a) * f <= a
  {
    if a <= b {
      MulNonNegative(b - a, f);
      MulNonNegative(b - a, 1.0 - f);
    } else {
      MulNonNegative(a - b, f);
      MulNonNegative(a - b, 1.0 - f);
    }
  }
}
